=== FILE: README.md ===
# A verified model of the mik_edu learning-management core

mik_edu is a Django learning-management application. Administrators and students
work with study groups, subjects, modules, lecture files, quizzes and weekly
timetables. This project models the parts of the application that hold logic beyond
plain create/read/update/delete:

- **The attempt engine of the test page** (`take_test`). It counts a user's earlier
  attempts on a test and refuses once the test's attempt limit is reached. A refusal
  reports the score of the most recent attempt. Otherwise it grades the posted answers
  and appends exactly one attempt. The attempt table is a class field (`AttemptStore`)
  that the view appends to. Grading is a loop proved against a function of the
  questions.
- **The student journal** (`student_journal`). A student's attempts, newest first, are
  grouped by subject. Each entry has a total, a maximum, a count and an average. The
  two loops of the view are methods proved against specification functions.
- **The administrator's journal matrix** (`admin_journal_subject_detail`). It has one
  row per student who attempted one of the subject's tests and one cell per test. A
  cell holds the best score, or none, and the attempt count.
- **The access rules** of `subject_detail`, `lecture_detail` and `lectures_list`, and
  `is_admin`.
- **The lecture page** (`lecture_detail`). The file kind decides whether the page
  carries converted Markdown, converted DOCX, a fallback message, or no content. The
  file reader and the converters are parameters, and each may fail.
- **The per-group timetable editor** (`admin_schedule_group`). It handles the 'add'
  and 'delete' form actions and the listing of a group. The Schedule table is a class
  (`ScheduleTable`) whose invariant covers ordering, the `unique_together` key and
  unique ids.
- **The logic of the model classes.** This covers `Lecture.file_ext`,
  `lecture_upload_to`, the default attempt limit of a test, the day names, the ordering
  and uniqueness key of `Schedule`, and `Schedule.__str__`.

Database queries are functions over sequences. The order of a sequence is the order the
query returns. The request's clock, the file system, the Markdown and DOCX converters,
and the parsing of a time field are parameters.

Several columns are declared more loosely than their choices suggest. Choices are
checked by forms, not by the database or by `objects.create`, so the model keeps every
value the columns can hold:

- `Test.attempts_limit` is an `IntegerField` with a default of 3 and no validator
  (core/models.py:65), so a limit of zero or less can be stored. With no earlier
  attempt, `take_test` then fails on `latest()`, which the model exposes as
  `Failed(NoAttemptToReport)`.
- `User.role` is a `CharField` with the two `ROLE_CHOICES` (core/models.py:21-25), so
  it can hold other text. The model keeps any other value as `OtherRole`, whose text is never one of the two literals. Such an
  account passes the group checks of `subject_detail`, `lecture_detail` and
  `lectures_list`, like an administrator. It is refused by `student_journal`, left out
  of the journal matrix and is no administrator.
- `Schedule.day_of_week` is an `IntegerField` with the seven `DAY_CHOICES`
  (core/models.py:99-110). The 'add' action calls `objects.create` directly, so it
  stores any integer `int()` returns that the database's integer column can hold. A
  row with a day outside 1 to 7 has no day name, and `__str__` fails on it.

Two behaviours of the views are kept as written:

- A student without a group is shown every lecture by `lectures_list`. Yet
  `lecture_detail` refuses every lecture to that student.
- A 'delete' whose `schedule_id` is not an integer raises outside any handler. The
  model records this as a server error that leaves the table unchanged.

## Model

| member | source | states |
|---|---|---|
| Common.ParseInt | core/views.py:324 | `int()` of a posted value: a result exists only when the text holds a decimal digit |
| Common.ParseIntOfNatToString | core/views.py:324 | a number written as a decimal numeral is read back by `int()` as the same number |
| Common.ParseIntNeedsADigit | core/views.py:324 | text without any digit is refused by `int()` |
| Common.Lower | core/models.py:52 | `lower()` keeps the length and lower-cases each ASCII letter in place |
| Models.FileExt | core/models.py:50-59 | the kind is PDF, Markdown (".md" or ".markdown"), DOCX or other exactly when the lower-cased name has the matching suffix |
| Models.SuffixesDisjoint | core/models.py:53-58 | no name ends in two suffixes of different kinds, so the order of the tests in `file_ext` does not matter |
| Models.FileExtIgnoresCase | core/models.py:52-59 | two names that differ only in letter case get the same kind |
| Models.FileExtWithoutDot | core/models.py:53-59 | a name without a dot is always of kind other |
| Models.LectureUploadTo | core/models.py:37-38 | the path exists exactly when the module has a subject; it starts with "lectures/", ends with the file name and has the length of its parts plus the separators |
| Models.UploadPathInjective | core/models.py:37-38 | with slash-free group and subject names, equal paths mean the same group, subject and file name |
| Models.NewTest | core/models.py:65 | a test created without a limit gets an attempt limit of 3 |
| Models.DayName | core/models.py:99-107 | a day has a name exactly when it is 1..7, and the pair is one of the seven day choices |
| Models.DayNamesDistinct | core/models.py:99-107 | the seven days have seven different names |
| Models.TwoDigits | core/models.py:119-121 | a two-digit numeral of a number below 100 reads back as that number |
| Models.FormatTime | core/models.py:119-121 | the time is printed as "HH:MM:SS", whose fields recombine to the time of day |
| Models.ScheduleStr | core/models.py:119-121 | a timetable entry prints exactly when its day is 1..7, as the group and day name, then eight characters "HH:MM:SS" denoting its start time, then the subject, and nothing else |
| Models.UniqueSlots | core/models.py:117 | no two rows, in either order, share a group, a day and a start time |
| Models.InScheduleOrder | core/models.py:116 | rows are in (day, time) order exactly when each row is in order with the next one |
| Models.GroupListingStrictlyOrdered | core/models.py:115-117 | in an ordered listing without slot clashes, the (day, time) keys of a group's rows increase strictly |
| Access.IsAdmin | core/views.py:20-21 | the anonymous user is never an administrator, and an administrator is never a student |
| Access.ModulesOf | core/views.py:228 | a subject's modules are exactly the given modules whose subject it is |
| Access.SubjectDetail | core/views.py:222-229 | refused exactly for a student whose group is not the subject's group; otherwise the page shows the subject and exactly its modules |
| Access.AssignedTo | core/views.py:216 | exactly the lectures assigned to the group |
| Access.CanOpenLecture | core/views.py:278 | anyone but a student may open any lecture, an administrator included; a student without a group may open none; a student who may open a lecture has a group assigned to it |
| Access.LecturesList | core/views.py:212-219 | a student with a group sees exactly the lectures assigned to that group; every other user sees every lecture |
| Access.AdminBypassesGroupChecks | core/views.py:215-278 | an administrator passes the subject check and the lecture check, and lists every lecture |
| Access.ListedLecturesOpen | core/views.py:212-219 | every lecture listed to a non-student or to a student with a group opens for that user |
| Access.GrouplessStudentListsButCannotOpen | core/views.py:278 | a student without a group lists every lecture yet can open none |
| LectureContent.MarkdownContent | core/views.py:284-291 | an unreadable file gives the fixed Markdown message; any other text is the converter's output for the file's text |
| LectureContent.DocxContent | core/views.py:292-299 | an unreadable file gives the fixed DOCX message; any other text is the converter's output for the file's bytes |
| LectureContent.Content | core/views.py:281-299 | content is absent exactly for PDF, other, or DOCX without the converter; Markdown and DOCX give the converted HTML when the read and the conversion succeed, else the fixed fallback message |
| LectureContent.LectureDetail | core/views.py:275-301 | refused exactly when the access check fails; otherwise the page carries the lecture, the file URL and the content its kind calls for |
| LectureContent.UnreadableMarkdownFallsBack | core/views.py:284-291 | a Markdown lecture whose file cannot be read shows the Markdown fallback message |
| AttemptEngine.CountFor | core/views.py:309 | the count is at most the table size and is zero exactly when the user has no attempt on the test |
| AttemptEngine.LatestFor | core/views.py:313 | `latest("created")` exists exactly when the count is positive; it is one of the user's attempts on the test, with no later timestamp among them |
| AttemptEngine.CountForAppend | core/views.py:309 | appending an attempt raises the count by one exactly when it is this user's attempt on this test |
| AttemptEngine.LatestIsLastInserted | core/views.py:313 | when every earlier attempt is strictly older, the attempt just inserted is the latest |
| AttemptEngine.MarkAnswer | core/views.py:321-328 | a missing or empty answer is wrong; the answer is refused exactly when it is non-empty and `int()` rejects it; a correct answer names an existing choice marked correct |
| AttemptEngine.Tally | core/views.py:317-328 | a graded submission counts every question and at most that many correct ones; a rejected one names a question whose value `int()` refuses |
| AttemptEngine.GradedIffAllNumeric | core/views.py:321-328 | grading succeeds exactly when no posted value is refused by `int()` |
| AttemptEngine.Credited | core/views.py:324-326 | every credited question is one of the test's questions and its answer is a correct choice |
| AttemptEngine.CreditedExactlyCorrect | core/views.py:321-326 | a question of the test is credited exactly when its answer names an existing correct choice |
| AttemptEngine.CreditedCountsCorrectPositions | core/views.py:321-326 | the number of credits equals the number of positions whose answer is correct |
| AttemptEngine.GradedCountsCorrectAnswers | core/views.py:317-328 | the correct count of a graded submission is the number of questions answered with an existing correct choice |
| AttemptEngine.TallyCountsCredited | core/views.py:317-328 | the correct count equals the number of credited questions, and the total equals the number of questions |
| AttemptEngine.Score | core/views.py:329 | the score lies in 0..100, is 0 for a test without questions, and is correct/total as a percentage |
| AttemptEngine.GradeSubmission | core/views.py:317-328 | the loop over the questions computes the grading function, stopping at the first value `int()` refuses |
| AttemptEngine.TallyNext | core/views.py:319-328 | one more loop step extends the tally of a prefix by the verdict on the next question |
| AttemptEngine.TallyKeepsRejection | core/views.py:323-328 | once a value is refused, the whole submission is refused for that question |
| AttemptEngine.Submit | core/views.py:304-346 | only a scored POST changes the table, and it appends exactly the new attempt stamped with the request time |
| AttemptEngine.AttemptStore.TakeTest | core/views.py:304-346 | the request's outcome and the new attempt table are those of `Submit` on the old table |
| AttemptEngine.CapRefuses | core/views.py:309-314 | at the limit nothing is stored and the most recent score is reported; with no attempt to report (limit of zero or less) the request fails |
| AttemptEngine.SubmitGradedPost | core/views.py:316-340 | below the limit a graded POST reports the score and the attempts left and appends the attempt stamped with the request time |
| AttemptEngine.PostRecordsOneAttempt | core/views.py:316-340 | below the limit a graded POST appends one attempt with its score, raises the count by one, and reports a non-negative number of attempts left |
| AttemptEngine.GetShowsForm | core/views.py:342-346 | a GET below the limit stores nothing and reports a positive number of attempts left |
| AttemptEngine.NonNumericAnswerStoresNothing | core/views.py:323-328 | a value `int()` refuses aborts the request before anything is stored |
| AttemptEngine.UnknownChoiceIsIncorrect | core/views.py:324-328 | a posted id naming no choice is a wrong answer, not an error |
| AttemptEngine.CorrectChoiceCredited | core/views.py:321-326 | an answer that `int()` reads as the id of an existing choice marked correct is credited, the converse of `MarkAnswer`'s Correct clause |
| AttemptEngine.ForeignCorrectChoiceCredited | core/views.py:324-326 | a correct choice of another question still credits the answer, since the lookup is by id alone |
| AttemptEngine.ThreeOfFourScores75 | core/views.py:317-329 | three correct answers out of four questions score 75 |
| AttemptEngine.SubmitCount | core/views.py:309-330 | one request raises the user's count on the test by at most one, and only from below the limit |
| AttemptEngine.RunRespectsCap | core/views.py:309-330 | over any series of requests the count never exceeds the limit, unless the table already held more |
| AttemptEngine.NextAfterLastReportsItsScore | core/views.py:309-333 | after the last permitted POST, made strictly later than every earlier attempt, the next request is refused and reports the score that POST recorded |
| Journal.AttemptsOnMembers | core/views.py:251-263 | a subject's entry lists exactly the attempts whose test's module belongs to that subject |
| Journal.MaxScoreIsMaximum | core/views.py:260-265 | the maximum starts at 0, bounds every score, and is 0 or one of the scores |
| Journal.SubjectsIn | core/views.py:255-262 | each subject gets one entry |
| Journal.SubjectsInMembers | core/views.py:252-262 | the subjects with entries are exactly those of some attempt; attempts whose module has no subject are skipped |
| Journal.JournalOf | core/views.py:250-270 | one entry per subject, in order of first appearance, each the summary of that subject's attempts |
| Journal.FinishAll | core/views.py:268-270 | the second pass fills in the average of every entry and changes nothing else |
| Journal.TalliedAll | core/views.py:250-266 | the first pass gives each subject its attempts, total, maximum and count |
| Journal.TallyStepNew | core/views.py:255-266 | an attempt on a new subject appends a fresh entry for it |
| Journal.TallyStepKnown | core/views.py:263-266 | an attempt on a listed subject updates that entry only |
| Journal.TallyStepUnfiled | core/views.py:252-254 | an attempt whose module has no subject changes nothing |
| Journal.TallyAttempts | core/views.py:250-266 | the grouping loop computes the first pass |
| Journal.FillAverages | core/views.py:268-270 | the averaging loop computes the second pass |
| Journal.StudentJournalPage | core/views.py:244-272 | a non-student is refused exactly; otherwise the page has one entry per subject the attempts touch, no subject twice, each entry holding exactly that subject's attempts |
| Journal.StudentJournal | core/views.py:240-272 | a non-student is refused; a student gets the journal of the attempts |
| Journal.JournalEntriesAreNonEmpty | core/views.py:251-270 | every entry has at least one attempt, its count is its number of attempts, and its average is total over count |
| Journal.AttemptsOnKeepsOrder | core/views.py:247-263 | attempts fetched newest first stay newest first within each entry |
| Journal.SumScoresBounds | core/views.py:264 | the total of scores in 0..m lies between 0 and count times m |
| Journal.AverageAtMostMaximum | core/views.py:270 | a total between 0 and count times the maximum gives an average between 0 and the maximum |
| Journal.EntryAverageBounded | core/views.py:264-270 | for scores in 0..100 the average lies between 0 and the maximum, which is at most 100 |
| Journal.JournalAveragesBounded | core/views.py:264-270 | for scores in 0..100 each entry's average lies between 0 and its maximum, which is at most 100 |
| Journal.BestScore | core/views.py:175-182 | a best score exists exactly when the student has an attempt on the test |
| Journal.BestScoreIsMaximum | core/views.py:175-182 | the best score is one of the student's scores on the test, and none is higher |
| Journal.SubjectStudents | core/views.py:161-164 | the listed students are no more than the users |
| Journal.SubjectStudentsMembers | core/views.py:161-164 | the listed students are exactly the student-role users with an attempt on one of the subject's tests |
| Journal.CellFor | core/views.py:175-183 | a cell holds the attempt count and, exactly when that is positive, the highest score, which one of the attempts has |
| Journal.RowCells | core/views.py:173-184 | a row has one cell per test, in test order |
| Journal.StudentRow | core/views.py:173-184 | the inner loop builds the row's cells |
| Journal.MatrixRows | core/views.py:166-184 | the rows of a list of students: as many as the students, the k-th pairing the k-th student with that student's cells over the tests |
| Journal.SubjectMatrix | core/views.py:166-184 | one row per listed student, in order, each with that student's cells |
| Journal.BestOfThree | core/views.py:175-183 | attempts scoring 40, 90 and 60 give a cell of 90 over three attempts |
| ScheduleEditing.InsertSorted | core/models.py:116 | inserting a row adds exactly that row to the table |
| ScheduleEditing.InsertSortedWellFormed | core/models.py:115-117 | inserting a row with a free slot and a fresh id keeps the table ordered, clash-free and id-unique |
| ScheduleEditing.Where | core/views.py:40 | a filter keeps exactly the rows that satisfy it |
| ScheduleEditing.WhereWellFormed | core/views.py:40 | a filter of a well-formed table is well formed |
| ScheduleEditing.GroupSchedule | core/views.py:40 | a group's listing holds exactly the group's rows |
| ScheduleEditing.Remove | core/views.py:63-65 | a delete keeps exactly the rows that do not have both this id and this group |
| ScheduleEditing.GroupScheduleOrdered | core/views.py:40 | a group's listing is in (day, time) order with strictly increasing keys |
| ScheduleEditing.GroupPage | core/views.py:69-73 | the GET page lists exactly the group's rows, with the seven day choices |
| ScheduleEditing.NewRow | core/views.py:45-61 | a row is created only when day, time and subject are filled; it has the next id, the group and the posted values, its day fits the integer column, and it clashes with no existing slot |
| ScheduleEditing.Post | core/views.py:42-67 | a POST redirects back to the group, or fails with the table unchanged |
| ScheduleEditing.PostKeepsInvariant | core/views.py:42-67 | every POST keeps the table ordered, clash-free and id-unique |
| ScheduleEditing.AddNeedsDayTimeAndSubject | core/views.py:51 | an 'add' with day, time or subject missing or empty changes nothing |
| ScheduleEditing.AddToTakenSlotChangesNothing | core/views.py:53-61 | an 'add' for a slot the group already uses changes nothing |
| ScheduleEditing.AddInsertsOneRow | core/views.py:45-61 | a complete 'add' for a free slot, with a day the integer column holds, inserts exactly one row with the posted values, the next id and the room defaulting to empty |
| ScheduleEditing.AddWithOversizedDayChangesNothing | core/views.py:53-61 | a day the integer column cannot hold makes the insert fail; the error is swallowed and nothing changes |
| ScheduleEditing.AddStoresDayOutsideWeek | core/views.py:53-59 | a posted day of 9 is stored, and that row has no day name |
| ScheduleEditing.DeleteByNumericId | core/views.py:63-67 | a delete with a numeric id leaves the table filtered by that id and group, and redirects |
| ScheduleEditing.DeleteRemovesOnlyThatRow | core/views.py:63-65 | a delete removes exactly the row with the posted id in this group |
| ScheduleEditing.DeleteElsewhereChangesNothing | core/views.py:63-65 | a delete of another group's row, or of an unknown id, changes nothing |
| ScheduleEditing.RemoveAtMostOne | core/views.py:63-65 | with unique ids a delete removes at most one row |
| ScheduleEditing.DeleteWithBadIdFails | core/views.py:63-65 | a non-numeric id makes the request fail with the table unchanged |
| ScheduleEditing.ScheduleTable.constructor | core/models.py:115-117 | an empty table satisfies the invariant |
| ScheduleEditing.ScheduleTable.Add | core/views.py:45-61 | the 'add' action inserts the new row, if any, and keeps the invariant |
| ScheduleEditing.ScheduleTable.Delete | core/views.py:63-65 | the 'delete' action succeeds exactly when the id is absent or numeric, removes the row, and keeps the invariant |
| ScheduleEditing.ScheduleTable.HandlePost | core/views.py:42-67 | the new table and the response are those of `Post` on the old table, and the invariant holds |
| ScheduleEditing.ScheduleTable.Show | core/views.py:40-73 | the GET page lists the group's rows in strictly increasing (day, time) order |

## Left out

- Database lookups that end in a 404 (`get_object_or_404`), the login and `user_passes_test` decorators, and template rendering. A page is a datatype.
- The form keys "question_<id>" are a map keyed by question id.
- The parsing of a posted time field is a parameter. The file reader, the Markdown converter, the DOCX converter (or its absence) and the URL of a stored file are parameters too.
- `int()` and `lower()` are modelled on ASCII. Unicode digits and letters are not modelled, and neither are underscores between digits in `int()`.
- The database is taken to be SQLite with Django 5.0 or later. Its integer columns hold 64 signed bits. An integer lookup outside that range, such as a posted choice id or schedule id, is taken to match no row; earlier Django releases raise instead.
- Times of day are whole seconds. Microseconds of a posted time, the two distinct slots they can make, and the ".ffffff" part of the printed time are not modelled.
- Of two attempts with the same timestamp, `latest('created')` may return either. The model returns the one inserted later; the lemmas that name the latest attempt assume strictly increasing timestamps and so do not depend on that choice.
- The attempt queries' ordering (`order_by('-created')` in `student_journal`) is not modelled. The journal takes the user's attempts in the order the query returns them, newest first.
- Scores are exact reals. Floating-point rounding and the one-decimal formatting of the exhausted message are not modelled.
- A concurrent request between the count and the insert in `take_test` is not modelled. Each request is atomic.
- Students are ordered by name and tests by (module name, test name). Both orders are taken as the order of the given sequences.
- Journal.SubjectStudents: assumes the users are already distinct and in the query's order; `distinct()` is not modelled.
- The subject's full attempt list that `admin_journal_subject_detail` passes to its template is not modelled.
- The views `index`, `module_detail`, `admin_schedule` and the journal group pages are not modelled. They only query and render.
- `max_length` limits of text columns are not enforced, as SQLite does not enforce them.
- The Schedule table is kept sorted by (day, time). A row's position in the table is thus a modelling choice; the order of the listing is the source's `order_by`.
- Ids of new timetable rows come from a counter standing in for the database's autoincrement.
- AttemptEngine.Tally: states only that a rejected submission names some refused question. That it is the first such question is stated by `GradeSubmission`'s loop and `TallyKeepsRejection`, not by `Tally`'s own contract.
- Access.IsAdmin: states consequences of the check rather than the check itself. The predicate's body is the check.

=== FILE: access.dfy ===
/** The visibility rules the read views apply before showing a subject or a lecture.
    The only restricted role is 'student': an administrator, and equally any account
    whose stored role is neither literal, passes every group check. A refusal is a page
    state carrying the error, not an exception. */
module Access {
  import opened Common
  import opened Models

  predicate IsStudent(u: User) { u.role == Student }

  /** is_admin: a signed-in account whose role is 'admin'. The anonymous user never
      passes, and no administrator is subject to the student checks. */
  predicate IsAdmin(v: Viewer): (b: bool)
    ensures v.Anonymous? ==> !b
    ensures b ==> !IsStudent(v.user)
  {
    v.SignedIn? && v.user.role == Admin
  }

  // ---------------------------------------------------------------------------
  // subject_detail

  datatype SubjectPage = SubjectDenied | SubjectShown(subject: Subject, modules: seq<Module>)

  /** The modules of a subject, in the order the query returns them. */
  function ModulesOf(subject: Subject, modules: seq<Module>): (r: seq<Module>)
    ensures forall m :: m in r <==> m in modules && m.subject == Some(subject.id)
    ensures |r| <= |modules|
  {
    if modules == [] then []
    else (if modules[0].subject == Some(subject.id) then [modules[0]] else [])
         + ModulesOf(subject, modules[1..])
  }

  /** A student sees a subject only when it belongs to the student's own group; on a
      refusal the page carries no module at all. */
  function SubjectDetail(u: User, subject: Subject, modules: seq<Module>): (r: SubjectPage)
    ensures r.SubjectDenied? <==> IsStudent(u) && u.studyGroup != Some(subject.group)
    ensures r.SubjectShown? ==> r.subject == subject
    ensures r.SubjectShown? ==> forall m :: m in r.modules <==> m in modules && m.subject == Some(subject.id)
  {
    if IsStudent(u) && u.studyGroup != Some(subject.group) then SubjectDenied
    else SubjectShown(subject, ModulesOf(subject, modules))
  }

  // ---------------------------------------------------------------------------
  // lecture_detail and lectures_list

  /** A student may open a lecture only when the student's group is one of the
      lecture's assigned groups; a student without a group is never among them. */
  predicate CanOpenLecture(u: User, lecture: Lecture): (b: bool)
    ensures !IsStudent(u) ==> b
    ensures IsStudent(u) && u.studyGroup.None? ==> !b
    ensures b && IsStudent(u) ==> u.studyGroup.Some? && u.studyGroup.value in lecture.assignedGroups
  {
    !IsStudent(u) || (u.studyGroup.Some? && u.studyGroup.value in lecture.assignedGroups)
  }

  function AssignedTo(group: Id, lectures: seq<Lecture>): (r: seq<Lecture>)
    ensures forall l :: l in r <==> l in lectures && group in l.assignedGroups
    ensures |r| <= |lectures|
  {
    if lectures == [] then []
    else (if group in lectures[0].assignedGroups then [lectures[0]] else [])
         + AssignedTo(group, lectures[1..])
  }

  /** The lecture list filters by group only for a student who has a group; everyone
      else, a student without a group included, gets every lecture. */
  function LecturesList(u: User, lectures: seq<Lecture>): (r: seq<Lecture>)
    ensures IsStudent(u) && u.studyGroup.Some? ==>
              forall l :: l in r <==> l in lectures && u.studyGroup.value in l.assignedGroups
    ensures !(IsStudent(u) && u.studyGroup.Some?) ==> r == lectures
  {
    if IsStudent(u) && u.studyGroup.Some? then AssignedTo(u.studyGroup.value, lectures) else lectures
  }

  /** An administrator passes both group checks and lists every lecture. */
  lemma AdminBypassesGroupChecks(u: User, subject: Subject, modules: seq<Module>, lecture: Lecture, lectures: seq<Lecture>)
    requires IsAdmin(SignedIn(u))
    ensures SubjectDetail(u, subject, modules).SubjectShown?
    ensures CanOpenLecture(u, lecture)
    ensures LecturesList(u, lectures) == lectures
  {
  }

  /** Every lecture in a list shown to a user with a group, or to a non-student, opens
      for that user. */
  lemma {:induction false} ListedLecturesOpen(u: User, lectures: seq<Lecture>, l: Lecture)
    requires !IsStudent(u) || u.studyGroup.Some?
    requires l in LecturesList(u, lectures)
    ensures CanOpenLecture(u, l)
  {
  }

  /** A student without a group is shown the whole lecture list, yet every lecture
      refuses to open for that student. */
  lemma GrouplessStudentListsButCannotOpen(u: User, lectures: seq<Lecture>)
    requires IsStudent(u) && u.studyGroup.None?
    ensures LecturesList(u, lectures) == lectures
    ensures forall l :: l in lectures ==> !CanOpenLecture(u, l)
  {
  }
}

=== FILE: attempt_engine.dfy ===
/** The attempt engine behind the test page: it counts the user's earlier attempts
    on the test, refuses once the count reaches the test's limit (reporting the score
    of the most recent attempt), and otherwise grades a submission and records exactly
    one attempt. The attempt table is a sequence in insertion order; the clock that
    stamps `created` is a parameter. */
module AttemptEngine {
  import opened Common
  import opened Models

  /** A GET asks for the form; a POST carries the posted value for each question, keyed
      by question id (the form field "question_<id>"). A question without a field is
      absent from the map. */
  datatype Request = Get | Post(answers: map<Id, string>)

  /** Exceptions that escape the view: `latest()` on no rows, and `int()` on a posted
      value that is not a number. */
  datatype Failure = NoAttemptToReport | AnswerNotNumeric(question: Id)

  datatype Outcome =
    | Exhausted(limit: int, lastScore: real)
    | Scored(score: real, attemptsLeft: int, limit: int)
    | Form(attemptsLeft: int, limit: int)
    | Failed(failure: Failure)

  /** What one request returns and what the attempt table holds afterwards. */
  datatype Step = Step(outcome: Outcome, store: seq<Attempt>)

  // ---------------------------------------------------------------------------
  // Queries over the attempt table

  predicate IsAttemptOf(a: Attempt, user: Id, test: Id) { a.user == user && a.test == test }

  /** The number of attempts of a user on a test. */
  function CountFor(rs: seq<Attempt>, user: Id, test: Id): (n: nat)
    ensures n <= |rs|
    ensures n == 0 <==> forall i :: 0 <= i < |rs| ==> !IsAttemptOf(rs[i], user, test)
  {
    if rs == [] then 0
    else CountFor(rs[..|rs| - 1], user, test) + (if IsAttemptOf(rs[|rs| - 1], user, test) then 1 else 0)
  }

  /** `latest("created")`: the user's attempt on the test with the greatest timestamp.
      The database leaves ties open; taking the one inserted later is a modelling
      choice. The contract does not fix the tie, and the lemmas that name the latest
      attempt assume strictly older earlier attempts, so none of them rests on it. */
  function LatestFor(rs: seq<Attempt>, user: Id, test: Id): (r: Option<Attempt>)
    ensures r.Some? <==> CountFor(rs, user, test) > 0
    ensures r.Some? ==> r.value in rs && IsAttemptOf(r.value, user, test)
    ensures r.Some? ==> forall i :: 0 <= i < |rs| && IsAttemptOf(rs[i], user, test) ==> rs[i].created <= r.value.created
  {
    if rs == [] then None
    else
      var prev := LatestFor(rs[..|rs| - 1], user, test);
      var last := rs[|rs| - 1];
      assert forall i :: 0 <= i < |rs| - 1 ==> rs[i] == rs[..|rs| - 1][i];
      if IsAttemptOf(last, user, test) && (prev.None? || prev.value.created <= last.created) then Some(last)
      else prev
  }

  lemma CountForAppend(rs: seq<Attempt>, a: Attempt, user: Id, test: Id)
    ensures CountFor(rs + [a], user, test) == CountFor(rs, user, test) + (if IsAttemptOf(a, user, test) then 1 else 0)
  {
    assert (rs + [a])[..|rs|] == rs;
  }

  /** When every earlier attempt is strictly older, the attempt just inserted is the latest one. */
  lemma LatestIsLastInserted(rs: seq<Attempt>, a: Attempt)
    requires forall i :: 0 <= i < |rs| ==> rs[i].created < a.created
    ensures LatestFor(rs + [a], a.user, a.test) == Some(a)
  {
    assert (rs + [a])[..|rs|] == rs;
  }

  // ---------------------------------------------------------------------------
  // Grading

  datatype Mark = Correct | Incorrect | NotNumeric

  /** The verdict on one question: no field or an empty value is wrong; a value `int()`
      rejects raises; otherwise the choice with that id, looked up among all choices
      whatever question it belongs to, credits the answer when it exists and is correct. */
  function MarkAnswer(q: Id, answers: map<Id, string>, choices: map<Id, Choice>): (m: Mark)
    ensures q !in answers || answers[q] == "" ==> m == Incorrect
    ensures m == NotNumeric <==> q in answers && answers[q] != "" && ParseInt(answers[q]).None?
    ensures m == Correct ==> q in answers && ParseInt(answers[q]).Some? && ParseInt(answers[q]).value in choices
                             && choices[ParseInt(answers[q]).value].correct
  {
    if q !in answers || answers[q] == "" then Incorrect
    else match ParseInt(answers[q])
      case None => NotNumeric
      case Some(id) => if id in choices && choices[id].correct then Correct else Incorrect
  }

  /** The result of the grading loop: counts of correct and total questions, or the
      question whose value made `int()` raise. */
  datatype Grade = Graded(correct: nat, total: nat) | Rejected(question: Id)

  /** The grading loop over the test's questions, one question at a time. */
  function Tally(qs: seq<Id>, answers: map<Id, string>, choices: map<Id, Choice>): (g: Grade)
    ensures g.Graded? ==> g.total == |qs| && g.correct <= g.total
    ensures g.Rejected? ==> g.question in qs && MarkAnswer(g.question, answers, choices) == NotNumeric
  {
    if qs == [] then Graded(0, 0)
    else
      var front := qs[..|qs| - 1];
      var q := qs[|qs| - 1];
      assert forall x :: x in front ==> x in qs;
      match Tally(front, answers, choices)
      case Rejected(bad) => Rejected(bad)
      case Graded(c, t) =>
        match MarkAnswer(q, answers, choices)
        case NotNumeric => Rejected(q)
        case Correct => Graded(c + 1, t + 1)
        case Incorrect => Graded(c, t + 1)
  }

  /** The submission is graded exactly when every answer is empty, missing or an integer. */
  lemma GradedIffAllNumeric(qs: seq<Id>, answers: map<Id, string>, choices: map<Id, Choice>)
    ensures Tally(qs, answers, choices).Graded? <==> forall i :: 0 <= i < |qs| ==> MarkAnswer(qs[i], answers, choices) != NotNumeric
  {
    var numeric := q => MarkAnswer(q, answers, choices) != NotNumeric;
    GradedIffEvery(qs, answers, choices);
    EveryMeansAll(qs, numeric);
  }

  /** Every question of `qs` satisfies `ok`, checked from the last one back. */
  predicate Every(qs: seq<Id>, ok: Id -> bool) {
    qs == [] || (Every(qs[..|qs| - 1], ok) && ok(qs[|qs| - 1]))
  }

  lemma {:induction false} EveryMeansAll(qs: seq<Id>, ok: Id -> bool)
    ensures Every(qs, ok) <==> forall i :: 0 <= i < |qs| ==> ok(qs[i])
  {
    if qs != [] {
      var front := qs[..|qs| - 1];
      EveryMeansAll(front, ok);
      assert forall i :: 0 <= i < |front| ==> front[i] == qs[i];
    }
  }

  lemma {:induction false} GradedIffEvery(qs: seq<Id>, answers: map<Id, string>, choices: map<Id, Choice>)
    ensures Tally(qs, answers, choices).Graded? <==> Every(qs, q => MarkAnswer(q, answers, choices) != NotNumeric)
  {
    if qs != [] {
      GradedIffEvery(qs[..|qs| - 1], answers, choices);
    }
  }

  /** The questions of `qs` that satisfy `ok`, in order. */
  function Select(qs: seq<Id>, ok: Id -> bool): (r: seq<Id>)
    ensures forall q :: q in r ==> q in qs && ok(q)
    ensures |r| <= |qs|
  {
    if qs == [] then []
    else
      var front := qs[..|qs| - 1];
      var q := qs[|qs| - 1];
      assert forall x :: x in front ==> x in qs;
      Select(front, ok) + (if ok(q) then [q] else [])
  }

  lemma {:induction false} SelectExactly(qs: seq<Id>, ok: Id -> bool)
    ensures forall i :: 0 <= i < |qs| ==> (qs[i] in Select(qs, ok) <==> ok(qs[i]))
  {
    if qs != [] {
      var front := qs[..|qs| - 1];
      SelectExactly(front, ok);
      assert forall i :: 0 <= i < |front| ==> front[i] == qs[i];
    }
  }

  /** The positions of `qs` whose question satisfies `ok`. */
  function Positions(qs: seq<Id>, ok: Id -> bool): set<int> {
    set i | 0 <= i < |qs| && ok(qs[i])
  }

  lemma PositionsSnoc(qs: seq<Id>, ok: Id -> bool)
    requires qs != []
    ensures Positions(qs, ok)
            == Positions(qs[..|qs| - 1], ok) + (if ok(qs[|qs| - 1]) then {|qs| - 1} else {})
  {
    var front := qs[..|qs| - 1];
    forall i | 0 <= i < |front| ensures front[i] == qs[i] { }
  }

  lemma {:induction false} SelectCountsPositions(qs: seq<Id>, ok: Id -> bool)
    ensures |Select(qs, ok)| == |Positions(qs, ok)|
  {
    if qs == [] {
      assert Positions(qs, ok) == {};
    } else {
      var front := qs[..|qs| - 1];
      SelectCountsPositions(front, ok);
      PositionsSnoc(qs, ok);
      assert |qs| - 1 !in Positions(front, ok);
    }
  }

  /** The test a question passes: its answer names an existing correct choice. */
  function AnsweredCorrectly(answers: map<Id, string>, choices: map<Id, Choice>): Id -> bool {
    q => MarkAnswer(q, answers, choices) == Correct
  }

  /** The questions credited as correct, an independent reading of the grading: those
      whose answer names an existing correct choice. */
  function Credited(qs: seq<Id>, answers: map<Id, string>, choices: map<Id, Choice>): (r: seq<Id>)
    ensures forall q :: q in r ==> q in qs && MarkAnswer(q, answers, choices) == Correct
    ensures |r| <= |qs|
  {
    Select(qs, AnsweredCorrectly(answers, choices))
  }

  /** A question of the test is credited exactly when its answer is correct. */
  lemma CreditedExactlyCorrect(qs: seq<Id>, answers: map<Id, string>, choices: map<Id, Choice>)
    ensures forall i :: 0 <= i < |qs| ==>
              (qs[i] in Credited(qs, answers, choices) <==> MarkAnswer(qs[i], answers, choices) == Correct)
  {
    SelectExactly(qs, AnsweredCorrectly(answers, choices));
  }

  /** One credit per correctly answered position: the credited list is as long as the
      set of positions answered correctly. */
  lemma CreditedCountsCorrectPositions(qs: seq<Id>, answers: map<Id, string>, choices: map<Id, Choice>)
    ensures |Credited(qs, answers, choices)| == |Positions(qs, AnsweredCorrectly(answers, choices))|
  {
    SelectCountsPositions(qs, AnsweredCorrectly(answers, choices));
  }

  /** The grading loop counts exactly the credited questions, and every question. */
  lemma {:induction false} TallyCountsCredited(qs: seq<Id>, answers: map<Id, string>, choices: map<Id, Choice>)
    requires Tally(qs, answers, choices).Graded?
    ensures Tally(qs, answers, choices).correct == |Credited(qs, answers, choices)|
    ensures Tally(qs, answers, choices).total == |qs|
  {
    if qs != [] {
      var front := qs[..|qs| - 1];
      assert Tally(front, answers, choices).Graded?;
      TallyCountsCredited(front, answers, choices);
    }
  }

  /** The correct count of a graded submission is the number of questions whose
      answer names an existing correct choice. */
  lemma GradedCountsCorrectAnswers(qs: seq<Id>, answers: map<Id, string>, choices: map<Id, Choice>)
    requires Tally(qs, answers, choices).Graded?
    ensures Tally(qs, answers, choices).correct == |Positions(qs, AnsweredCorrectly(answers, choices))|
  {
    TallyCountsCredited(qs, answers, choices);
    CreditedCountsCorrectPositions(qs, answers, choices);
  }

  /** The score: the percentage of correct questions, and 0 for a test without questions. */
  function Score(correct: nat, total: nat): (s: real)
    requires correct <= total
    ensures 0.0 <= s <= 100.0
    ensures total == 0 ==> s == 0.0
    ensures s * (total as real) == (correct as real) * 100.0
  {
    if total == 0 then 0.0 else (correct as real / total as real) * 100.0
  }

  /** The grading loop of the view: walks the test's questions, counting each and
      counting the credited ones, and stops at the first value `int()` refuses. */
  method GradeSubmission(qs: seq<Id>, answers: map<Id, string>, choices: map<Id, Choice>) returns (g: Grade)
    ensures g == Tally(qs, answers, choices)
  {
    var total: nat := 0;
    var correct: nat := 0;
    var i := 0;
    assert qs[..0] == [];
    while i < |qs|
      invariant 0 <= i <= |qs|
      invariant Tally(qs[..i], answers, choices) == Graded(correct, total)
    {
      var q := qs[i];
      var mark := MarkAnswer(q, answers, choices);
      TallyStep(qs, i, correct, total, answers, choices);
      if mark == NotNumeric {
        return Rejected(q);
      }
      total := total + 1;
      if mark == Correct {
        correct := correct + 1;
      }
      i := i + 1;
    }
    assert qs[..i] == qs;
    g := Graded(correct, total);
  }

  /** One pass of the grading loop: a refused value decides the whole submission;
      otherwise the tally of the longer prefix counts one more question. */
  lemma TallyStep(qs: seq<Id>, i: int, correct: nat, total: nat, answers: map<Id, string>, choices: map<Id, Choice>)
    requires 0 <= i < |qs| && Tally(qs[..i], answers, choices) == Graded(correct, total)
    ensures MarkAnswer(qs[i], answers, choices) == NotNumeric ==> Tally(qs, answers, choices) == Rejected(qs[i])
    ensures MarkAnswer(qs[i], answers, choices) == Correct ==> Tally(qs[..i + 1], answers, choices) == Graded(correct + 1, total + 1)
    ensures MarkAnswer(qs[i], answers, choices) == Incorrect ==> Tally(qs[..i + 1], answers, choices) == Graded(correct, total + 1)
  {
    TallyNext(qs, i, answers, choices);
    if MarkAnswer(qs[i], answers, choices) == NotNumeric {
      TallyKeepsRejection(qs, i + 1, qs[i], answers, choices);
    }
  }

  /** One more question of the loop: the tally of the longer prefix. */
  lemma TallyNext(qs: seq<Id>, i: int, answers: map<Id, string>, choices: map<Id, Choice>)
    requires 0 <= i < |qs| && Tally(qs[..i], answers, choices).Graded?
    ensures var g := Tally(qs[..i], answers, choices);
            Tally(qs[..i + 1], answers, choices)
            == match MarkAnswer(qs[i], answers, choices)
               case NotNumeric => Rejected(qs[i])
               case Correct => Graded(g.correct + 1, g.total + 1)
               case Incorrect => Graded(g.correct, g.total + 1)
  {
    assert qs[..i + 1][..i] == qs[..i];
  }

  /** One more question after a graded prefix. */
  lemma TallySnoc(front: seq<Id>, q: Id, answers: map<Id, string>, choices: map<Id, Choice>)
    requires Tally(front, answers, choices).Graded?
    ensures var g := Tally(front, answers, choices);
            Tally(front + [q], answers, choices)
            == match MarkAnswer(q, answers, choices)
               case NotNumeric => Rejected(q)
               case Correct => Graded(g.correct + 1, g.total + 1)
               case Incorrect => Graded(g.correct, g.total + 1)
  {
    assert (front + [q])[..|front|] == front;
  }

  lemma {:induction false} TallyKeepsRejection(qs: seq<Id>, k: nat, q: Id, answers: map<Id, string>, choices: map<Id, Choice>)
    requires k <= |qs| && Tally(qs[..k], answers, choices) == Rejected(q)
    ensures Tally(qs, answers, choices) == Rejected(q)
    decreases |qs| - k
  {
    if k < |qs| {
      RejectionExtends(qs, k, q, answers, choices);
      TallyKeepsRejection(qs, k + 1, q, answers, choices);
    } else {
      assert qs[..k] == qs;
    }
  }

  /** A rejection in a prefix survives one more question. */
  lemma RejectionExtends(qs: seq<Id>, k: nat, q: Id, answers: map<Id, string>, choices: map<Id, Choice>)
    requires k < |qs| && Tally(qs[..k], answers, choices) == Rejected(q)
    ensures Tally(qs[..k + 1], answers, choices) == Rejected(q)
  {
    assert qs[..k + 1] == qs[..k] + [qs[k]];
    RejectionSnoc(qs[..k], qs[k], q, answers, choices);
  }

  lemma RejectionSnoc(front: seq<Id>, x: Id, q: Id, answers: map<Id, string>, choices: map<Id, Choice>)
    requires Tally(front, answers, choices) == Rejected(q)
    ensures Tally(front + [x], answers, choices) == Rejected(q)
  {
    assert (front + [x])[..|front|] == front;
  }

  // ---------------------------------------------------------------------------
  // One request to the test page

  /** take_test as a function of the attempt table before the request. */
  function Submit(rs: seq<Attempt>, user: Id, test: Test, choices: map<Id, Choice>, req: Request, now: int): (st: Step)
    ensures st.outcome.Scored? ==> st.store == rs + [Attempt(user, test.id, st.outcome.score, now)]
    ensures !st.outcome.Scored? ==> st.store == rs
  {
    var prior := CountFor(rs, user, test.id);
    if prior >= test.attemptsLimit then
      match LatestFor(rs, user, test.id)
      case None => Step(Failed(NoAttemptToReport), rs)
      case Some(last) => Step(Exhausted(test.attemptsLimit, last.score), rs)
    else
      match req
      case Get => Step(Form(test.attemptsLimit - prior, test.attemptsLimit), rs)
      case Post(answers) =>
        match Tally(test.questions, answers, choices)
        case Rejected(q) => Step(Failed(AnswerNotNumeric(q)), rs)
        case Graded(correct, total) =>
          var score := Score(correct, total);
          Step(Scored(score, test.attemptsLimit - (prior + 1), test.attemptsLimit), rs + [Attempt(user, test.id, score, now)])
  }

  /** The attempt table, which the view reads and appends to. */
  class AttemptStore {
    var attempts: seq<Attempt>

    constructor ()
      ensures attempts == []
    {
      attempts := [];
    }

    /** take_test for the signed-in user `u`, at time `now`. */
    method TakeTest(u: User, test: Test, choices: map<Id, Choice>, req: Request, now: int) returns (out: Outcome)
      modifies this
      ensures Submit(old(attempts), u.id, test, choices, req, now) == Step(out, attempts)
    {
      var prior := CountFor(attempts, u.id, test.id);
      if prior >= test.attemptsLimit {
        var last := LatestFor(attempts, u.id, test.id);
        if last.None? {
          return Failed(NoAttemptToReport);
        }
        return Exhausted(test.attemptsLimit, last.value.score);
      }
      if req.Get? {
        return Form(test.attemptsLimit - prior, test.attemptsLimit);
      }
      var g := GradeSubmission(test.questions, req.answers, choices);
      if g.Rejected? {
        return Failed(AnswerNotNumeric(g.question));
      }
      var score := Score(g.correct, g.total);
      attempts := attempts + [Attempt(u.id, test.id, score, now)];
      out := Scored(score, test.attemptsLimit - (prior + 1), test.attemptsLimit);
    }
  }

  // ---------------------------------------------------------------------------
  // Properties of one request

  /** At the limit nothing is stored; the page reports the most recent score, or, with
      no attempt at all to report (a limit of zero or less), the lookup raises. */
  lemma CapRefuses(rs: seq<Attempt>, user: Id, test: Test, choices: map<Id, Choice>, req: Request, now: int)
    requires CountFor(rs, user, test.id) >= test.attemptsLimit
    ensures var st := Submit(rs, user, test, choices, req, now);
            st.store == rs &&
            (CountFor(rs, user, test.id) > 0 ==>
               st.outcome == Exhausted(test.attemptsLimit, LatestFor(rs, user, test.id).value.score)) &&
            (CountFor(rs, user, test.id) == 0 ==> test.attemptsLimit <= 0 && st.outcome == Failed(NoAttemptToReport))
  {
  }

  /** Below the limit a graded POST appends exactly one attempt of this user on this
      test, stamped `now`, and reports the attempts left after it. */
  lemma PostRecordsOneAttempt(rs: seq<Attempt>, user: Id, test: Test, choices: map<Id, Choice>, answers: map<Id, string>, now: int)
    requires CountFor(rs, user, test.id) < test.attemptsLimit
    requires Tally(test.questions, answers, choices).Graded?
    ensures var st := Submit(rs, user, test, choices, Post(answers), now);
            var g := Tally(test.questions, answers, choices);
            st.store == rs + [Attempt(user, test.id, Score(g.correct, g.total), now)] &&
            st.outcome == Scored(Score(g.correct, g.total), test.attemptsLimit - (CountFor(rs, user, test.id) + 1), test.attemptsLimit) &&
            CountFor(st.store, user, test.id) == CountFor(rs, user, test.id) + 1 &&
            st.outcome.attemptsLeft >= 0
  {
    var g := Tally(test.questions, answers, choices);
    SubmitGradedPost(rs, user, test, choices, answers, now);
    CountForAppend(rs, Attempt(user, test.id, Score(g.correct, g.total), now), user, test.id);
  }

  lemma SubmitGradedPost(rs: seq<Attempt>, user: Id, test: Test, choices: map<Id, Choice>, answers: map<Id, string>, now: int)
    requires CountFor(rs, user, test.id) < test.attemptsLimit
    requires Tally(test.questions, answers, choices).Graded?
    ensures var g := Tally(test.questions, answers, choices);
            var score := Score(g.correct, g.total);
            Submit(rs, user, test, choices, Post(answers), now)
            == Step(Scored(score, test.attemptsLimit - (CountFor(rs, user, test.id) + 1), test.attemptsLimit),
                    rs + [Attempt(user, test.id, score, now)])
  {
  }

  /** A GET below the limit stores nothing and reports the attempts still left. */
  lemma GetShowsForm(rs: seq<Attempt>, user: Id, test: Test, choices: map<Id, Choice>, now: int)
    requires CountFor(rs, user, test.id) < test.attemptsLimit
    ensures Submit(rs, user, test, choices, Get, now)
            == Step(Form(test.attemptsLimit - CountFor(rs, user, test.id), test.attemptsLimit), rs)
    ensures test.attemptsLimit - CountFor(rs, user, test.id) > 0
  {
  }

  /** A value `int()` refuses aborts the request before anything is stored. */
  lemma NonNumericAnswerStoresNothing(rs: seq<Attempt>, user: Id, test: Test, choices: map<Id, Choice>, answers: map<Id, string>, now: int)
    requires CountFor(rs, user, test.id) < test.attemptsLimit
    requires exists i :: 0 <= i < |test.questions| && MarkAnswer(test.questions[i], answers, choices) == NotNumeric
    ensures var st := Submit(rs, user, test, choices, Post(answers), now);
            st.store == rs && st.outcome.Failed? && st.outcome.failure.AnswerNotNumeric?
            && st.outcome.failure.question in test.questions
  {
    GradedIffAllNumeric(test.questions, answers, choices);
    assert Tally(test.questions, answers, choices).Rejected?;
  }

  // ---------------------------------------------------------------------------
  // Answer interpretation

  /** A posted id that names no choice is a wrong answer, not an error. */
  lemma UnknownChoiceIsIncorrect(q: Id, answers: map<Id, string>, choices: map<Id, Choice>, id: nat)
    requires q in answers && answers[q] == NatToString(id) && id !in choices
    ensures MarkAnswer(q, answers, choices) == Incorrect
  {
    ParseIntOfNatToString(id);
  }

  /** An answer that `int()` reads as the id of an existing choice marked correct is
      credited: the converse of `MarkAnswer`'s Correct clause. */
  lemma CorrectChoiceCredited(q: Id, answers: map<Id, string>, choices: map<Id, Choice>)
    requires q in answers && answers[q] != "" && ParseInt(answers[q]).Some?
    requires ParseInt(answers[q]).value in choices && choices[ParseInt(answers[q]).value].correct
    ensures MarkAnswer(q, answers, choices) == Correct
  {
  }

  /** The lookup is by id alone: a correct choice of another question still credits. */
  lemma ForeignCorrectChoiceCredited(q: Id, answers: map<Id, string>, choices: map<Id, Choice>, id: nat)
    requires q in answers && answers[q] == NatToString(id)
    requires id in choices && choices[id].correct && choices[id].question != q
    ensures MarkAnswer(q, answers, choices) == Correct
  {
    ParseIntOfNatToString(id);
  }

  /** Four questions, three answered with correct choices and one left unanswered, score 75. */
  lemma ThreeOfFourScores75(answers: map<Id, string>, choices: map<Id, Choice>)
    requires MarkAnswer(1, answers, choices) == Correct && MarkAnswer(2, answers, choices) == Correct
    requires MarkAnswer(3, answers, choices) == Correct && 4 !in answers
    ensures Tally([1, 2, 3, 4], answers, choices) == Graded(3, 4)
    ensures Score(3, 4) == 75.0
  {
    FirstThreeCorrect(answers, choices);
    assert MarkAnswer(4, answers, choices) == Incorrect;
    TallySnoc([1, 2, 3], 4, answers, choices);
    assert [1, 2, 3] + [4] == [1, 2, 3, 4];
    ThreeQuartersIs75();
  }

  /** Three correct out of four questions score 75. */
  lemma ThreeQuartersIs75()
    ensures Score(3, 4) == 75.0
  {
  }

  /** Steps of the four-question example. */
  lemma FirstThreeCorrect(answers: map<Id, string>, choices: map<Id, Choice>)
    requires MarkAnswer(1, answers, choices) == Correct && MarkAnswer(2, answers, choices) == Correct
    requires MarkAnswer(3, answers, choices) == Correct
    ensures Tally([1, 2, 3], answers, choices) == Graded(3, 3)
  {
    FirstTwoCorrect(answers, choices);
    TallySnoc([1, 2], 3, answers, choices);
    assert [1, 2] + [3] == [1, 2, 3];
  }

  lemma FirstTwoCorrect(answers: map<Id, string>, choices: map<Id, Choice>)
    requires MarkAnswer(1, answers, choices) == Correct && MarkAnswer(2, answers, choices) == Correct
    ensures Tally([1, 2], answers, choices) == Graded(2, 2)
  {
    TallySnoc([], 1, answers, choices);
    assert [] + [1] == [1];
    TallySnoc([1], 2, answers, choices);
    assert [1] + [2] == [1, 2];
  }

  // ---------------------------------------------------------------------------
  // The cap over a run of requests

  /** The table after a series of requests by one user on one test, each at its own time. */
  function Run(rs: seq<Attempt>, user: Id, test: Test, choices: map<Id, Choice>, reqs: seq<(Request, int)>): seq<Attempt>
    decreases |reqs|
  {
    if reqs == [] then rs
    else Run(Submit(rs, user, test, choices, reqs[0].0, reqs[0].1).store, user, test, choices, reqs[1..])
  }

  lemma SubmitCount(rs: seq<Attempt>, user: Id, test: Test, choices: map<Id, Choice>, req: Request, now: int)
    ensures var n := CountFor(rs, user, test.id);
            var n' := CountFor(Submit(rs, user, test, choices, req, now).store, user, test.id);
            n' == n || (n < test.attemptsLimit && n' == n + 1)
  {
    var st := Submit(rs, user, test, choices, req, now);
    if st.store != rs {
      CountForAppend(rs, st.store[|rs|], user, test.id);
    }
  }

  /** However many requests a user sends, the attempts on a test never go beyond the
      limit, unless the table already held more. */
  lemma {:induction false} RunRespectsCap(rs: seq<Attempt>, user: Id, test: Test, choices: map<Id, Choice>, reqs: seq<(Request, int)>)
    decreases |reqs|
    ensures var n := CountFor(rs, user, test.id);
            CountFor(Run(rs, user, test, choices, reqs), user, test.id) <= if n >= test.attemptsLimit then n else test.attemptsLimit
  {
    if reqs != [] {
      var st := Submit(rs, user, test, choices, reqs[0].0, reqs[0].1);
      SubmitCount(rs, user, test, choices, reqs[0].0, reqs[0].1);
      RunRespectsCap(st.store, user, test, choices, reqs[1..]);
    }
  }

  /** After the last permitted graded POST, the next request is refused and reports
      the score that POST recorded, provided the clock did not run backwards. */
  lemma NextAfterLastReportsItsScore(rs: seq<Attempt>, user: Id, test: Test, choices: map<Id, Choice>,
                                     answers: map<Id, string>, now: int, req: Request, later: int)
    requires CountFor(rs, user, test.id) == test.attemptsLimit - 1
    requires Tally(test.questions, answers, choices).Graded?
    requires forall i :: 0 <= i < |rs| ==> rs[i].created < now
    ensures var st := Submit(rs, user, test, choices, Post(answers), now);
            st.outcome.Scored? &&
            Submit(st.store, user, test, choices, req, later) == Step(Exhausted(test.attemptsLimit, st.outcome.score), st.store)
  {
    var st := Submit(rs, user, test, choices, Post(answers), now);
    PostRecordsOneAttempt(rs, user, test, choices, answers, now);
    LatestIsLastInserted(rs, st.store[|rs|]);
  }
}

=== FILE: common.dfy ===
/** Small value-level helpers shared by every part of the model: an Option type and
    the two Python string built-ins the views rely on, `int()` on a posted form value
    and `str.lower()` on a stored file name, both restricted to ASCII. */
module Common {

  datatype Option<T> = None | Some(value: T)

  predicate IsDigit(c: char) { '0' <= c <= '9' }

  /** The ASCII white space that Python's `int()` skips around a numeral. */
  predicate IsSpace(c: char) {
    c == ' ' || c == '\t' || c == '\n' || c == '\r' || c as int == 11 || c as int == 12
  }

  predicate AllDigits(s: string) { forall i :: 0 <= i < |s| ==> IsDigit(s[i]) }

  function DigitValue(c: char): (d: nat)
    requires IsDigit(c)
    ensures d < 10
  {
    c as int - '0' as int
  }

  function DigitChar(d: nat): (c: char)
    requires d < 10
    ensures IsDigit(c) && DigitValue(c) == d
  {
    ('0' as int + d) as char
  }

  /** The value of a decimal numeral, most significant digit first. */
  function DigitsValue(s: string): nat
    requires AllDigits(s)
  {
    if s == [] then 0 else DigitsValue(s[..|s| - 1]) * 10 + DigitValue(s[|s| - 1])
  }

  function TrimLeft(s: string): (r: string)
    ensures |r| <= |s| && r == s[|s| - |r|..]
    ensures r != [] ==> !IsSpace(r[0])
  {
    if s != [] && IsSpace(s[0]) then TrimLeft(s[1..]) else s
  }

  function TrimRight(s: string): (r: string)
    ensures |r| <= |s| && r == s[..|r|]
    ensures r != [] ==> !IsSpace(r[|r| - 1])
  {
    if s != [] && IsSpace(s[|s| - 1]) then TrimRight(s[..|s| - 1]) else s
  }

  function Strip(s: string): string { TrimRight(TrimLeft(s)) }

  /** Python's `int(s)` on a text value: surrounding white space is ignored, one
      optional sign, then one or more decimal digits. `None` stands for the
      `ValueError` that `int()` raises on anything else. */
  function ParseInt(s: string): (r: Option<int>)
    ensures r.Some? ==> exists i :: 0 <= i < |s| && IsDigit(s[i])
  {
    var t := Strip(s);
    if t != [] && (t[0] == '+' || t[0] == '-') then
      var body := t[1..];
      if body != [] && AllDigits(body) then
        var l := TrimLeft(s);
        assert t[1] == l[1] == s[|s| - |l| + 1];
        assert IsDigit(body[0]);
        var v: int := DigitsValue(body);
        Some(if t[0] == '-' then -v else v)
      else None
    else if t != [] && AllDigits(t) then
      var l := TrimLeft(s);
      assert t[0] == l[0] == s[|s| - |l|];
      assert IsDigit(t[0]);
      Some(DigitsValue(t))
    else None
  }

  /** Python's `str(n)` for a natural number: its decimal numeral without leading zeros. */
  function NatToString(n: nat): (s: string)
    ensures s != [] && AllDigits(s)
    ensures |s| > 1 ==> s[0] != '0'
  {
    if n < 10 then [DigitChar(n)] else NatToString(n / 10) + [DigitChar(n % 10)]
  }

  lemma {:induction false} DigitsValueOfNatToString(n: nat)
    ensures DigitsValue(NatToString(n)) == n
  {
    if n >= 10 {
      var s := NatToString(n);
      assert s[..|s| - 1] == NatToString(n / 10);
      DigitsValueOfNatToString(n / 10);
    }
  }

  /** A numeral written by `str(n)` reads back as `n` through `int()`: an id rendered
      into a form comes back as the same id. */
  lemma ParseIntOfNatToString(n: nat)
    ensures ParseInt(NatToString(n)) == Some(n)
  {
    var s := NatToString(n);
    assert !IsSpace(s[0]) && !IsSpace(s[|s| - 1]);
    assert TrimLeft(s) == s;
    assert TrimRight(s) == s;
    DigitsValueOfNatToString(n);
  }

  /** A text value with no decimal digit at all is refused by `int()`. */
  lemma ParseIntNeedsADigit(s: string)
    requires forall i :: 0 <= i < |s| ==> !IsDigit(s[i])
    ensures ParseInt(s).None?
  {
  }

  function LowerChar(c: char): (r: char)
    ensures 'A' <= c <= 'Z' ==> r as int == c as int + 32
    ensures !('A' <= c <= 'Z') ==> r == c
  {
    if 'A' <= c <= 'Z' then (c as int + 32) as char else c
  }

  /** Python's `str.lower()` on ASCII letters; every other character is kept. */
  function Lower(s: string): (r: string)
    ensures |r| == |s|
    ensures forall i :: 0 <= i < |s| ==> r[i] == LowerChar(s[i])
  {
    if s == [] then [] else [LowerChar(s[0])] + Lower(s[1..])
  }

  predicate EndsWith(s: string, suffix: string) {
    |suffix| <= |s| && s[|s| - |suffix|..] == suffix
  }

  predicate StartsWith(s: string, prefix: string) {
    |prefix| <= |s| && s[..|prefix|] == prefix
  }
}

=== FILE: journal.dfy ===
/** The two journals built from the attempt table: a student's own journal, which
    groups the student's attempts by subject with their sum, maximum, count and
    average, and the administrators' subject journal, a matrix of best score and
    attempt count per student and test. The join from an attempt's test to its
    module's subject is the parameter `subjectOf`. */
module Journal {
  import opened Common
  import opened Models
  import opened AttemptEngine

  // ---------------------------------------------------------------------------
  // student_journal: the specification

  predicate OnSubject(a: Attempt, s: Id, subjectOf: Id -> Option<Id>) {
    subjectOf(a.test) == Some(s)
  }

  /** The attempts on tests of subject `s`, in the order of `xs`. */
  function AttemptsOn(xs: seq<Attempt>, s: Id, subjectOf: Id -> Option<Id>): seq<Attempt> {
    if xs == [] then []
    else
      var last := xs[|xs| - 1];
      AttemptsOn(xs[..|xs| - 1], s, subjectOf) + (if OnSubject(last, s, subjectOf) then [last] else [])
  }

  /** Grouping loses and invents nothing: the attempts listed under a subject are
      exactly the attempts on that subject's tests. */
  lemma {:induction false} AttemptsOnMembers(xs: seq<Attempt>, s: Id, subjectOf: Id -> Option<Id>)
    ensures forall a :: a in AttemptsOn(xs, s, subjectOf) <==> a in xs && OnSubject(a, s, subjectOf)
  {
    if xs != [] {
      var front := xs[..|xs| - 1];
      assert xs == front + [xs[|xs| - 1]];
      AttemptsOnMembers(front, s, subjectOf);
    }
  }

  lemma {:induction false} AttemptsOnNone(xs: seq<Attempt>, s: Id, subjectOf: Id -> Option<Id>)
    requires forall a :: a in xs ==> !OnSubject(a, s, subjectOf)
    ensures AttemptsOn(xs, s, subjectOf) == []
  {
    if xs != [] {
      var front := xs[..|xs| - 1];
      assert forall a :: a in front ==> a in xs;
      AttemptsOnNone(front, s, subjectOf);
    }
  }

  function SumScores(xs: seq<Attempt>): real {
    if xs == [] then 0.0 else SumScores(xs[..|xs| - 1]) + xs[|xs| - 1].score
  }

  function Max(a: real, b: real): real { if a >= b then a else b }

  /** The running maximum of the view, which starts from 0. */
  function MaxScore(xs: seq<Attempt>): real {
    if xs == [] then 0.0 else Max(MaxScore(xs[..|xs| - 1]), xs[|xs| - 1].score)
  }

  /** The maximum seeded with 0 is at least 0, at least every score, and is either
      0 or one of the scores. */
  lemma {:induction false} MaxScoreIsMaximum(xs: seq<Attempt>)
    ensures MaxScore(xs) >= 0.0
    ensures forall a :: a in xs ==> a.score <= MaxScore(xs)
    ensures MaxScore(xs) == 0.0 || exists a :: a in xs && a.score == MaxScore(xs)
  {
    if xs != [] {
      var front := xs[..|xs| - 1];
      assert xs == front + [xs[|xs| - 1]];
      MaxScoreIsMaximum(front);
    }
  }

  /** The subjects the attempts belong to, each once, in order of first appearance;
      attempts whose module has no subject contribute none. */
  function SubjectsIn(xs: seq<Attempt>, subjectOf: Id -> Option<Id>): (r: seq<Id>)
    ensures forall i, j :: 0 <= i < j < |r| ==> r[i] != r[j]
  {
    if xs == [] then []
    else
      var prev := SubjectsIn(xs[..|xs| - 1], subjectOf);
      match subjectOf(xs[|xs| - 1].test)
      case None => prev
      case Some(s) => if s in prev then prev else prev + [s]
  }

  /** A subject is listed exactly when some attempt is on one of its tests. */
  lemma {:induction false} SubjectsInMembers(xs: seq<Attempt>, subjectOf: Id -> Option<Id>)
    ensures forall s :: s in SubjectsIn(xs, subjectOf) <==> exists a :: a in xs && OnSubject(a, s, subjectOf)
  {
    if xs != [] {
      var front := xs[..|xs| - 1];
      var last := xs[|xs| - 1];
      assert xs == front + [last];
      SubjectsInMembers(front, subjectOf);
      assert last in xs && forall a :: a in front ==> a in xs;
    }
  }

  /** One subject's entry of the journal; `average` is the view's second pass. */
  datatype SubjectSummary = SubjectSummary(
    subject: Id, attempts: seq<Attempt>, totalScore: real, maxScore: real, count: nat, average: real)

  function Average(total: real, count: nat): real {
    if count > 0 then total / (count as real) else 0.0
  }

  /** The entry for subject `s` before the average is filled in. */
  function Tallied(s: Id, xs: seq<Attempt>, subjectOf: Id -> Option<Id>): SubjectSummary {
    var ys := AttemptsOn(xs, s, subjectOf);
    SubjectSummary(s, ys, SumScores(ys), MaxScore(ys), |ys|, 0.0)
  }

  function Finished(e: SubjectSummary): SubjectSummary {
    e.(average := Average(e.totalScore, e.count))
  }

  function Summary(s: Id, xs: seq<Attempt>, subjectOf: Id -> Option<Id>): SubjectSummary {
    Finished(Tallied(s, xs, subjectOf))
  }

  /** The journal of a list of attempts: one entry per subject, in order of first appearance. */
  function JournalOf(xs: seq<Attempt>, subjectOf: Id -> Option<Id>): (r: seq<SubjectSummary>)
    ensures |r| == |SubjectsIn(xs, subjectOf)|
    ensures forall k :: 0 <= k < |r| ==> r[k] == Summary(SubjectsIn(xs, subjectOf)[k], xs, subjectOf)
  {
    FinishAll(TalliedAll(xs, subjectOf))
  }

  /** Every entry with its average filled in. */
  function FinishAll(data: seq<SubjectSummary>): (r: seq<SubjectSummary>)
    ensures |r| == |data| && forall k :: 0 <= k < |r| ==> r[k] == Finished(data[k])
  {
    seq(|data|, k requires 0 <= k < |data| => Finished(data[k]))
  }

  datatype JournalPage = JournalDenied | JournalShown(summaries: seq<SubjectSummary>)

  /** student_journal for user `u`, given the user's attempts in the order the query
      returns them (most recent first). */
  function StudentJournalPage(u: User, attempts: seq<Attempt>, subjectOf: Id -> Option<Id>): (r: JournalPage)
    ensures r.JournalDenied? <==> u.role != Student
    ensures r.JournalShown? ==>
              (forall i, j :: 0 <= i < j < |r.summaries| ==> r.summaries[i].subject != r.summaries[j].subject)
              && (forall k :: 0 <= k < |r.summaries| ==>
                    r.summaries[k].attempts == AttemptsOn(attempts, r.summaries[k].subject, subjectOf))
              && (forall k :: 0 <= k < |r.summaries| ==>
                    Attempted(attempts, r.summaries[k].subject, subjectOf))
              && (forall a :: a in attempts && subjectOf(a.test).Some? ==>
                    exists k :: 0 <= k < |r.summaries| && r.summaries[k].subject == subjectOf(a.test).value)
  {
    if u.role != Student then JournalDenied
    else
      var summaries := JournalOf(attempts, subjectOf);
      JournalCoversSubjects(attempts, subjectOf);
      JournalShown(summaries)
  }

  /** Some attempt of the list is on a test of subject `s`. */
  predicate Attempted(attempts: seq<Attempt>, s: Id, subjectOf: Id -> Option<Id>) {
    exists a :: a in attempts && OnSubject(a, s, subjectOf)
  }

  /** The journal has one entry per subject the attempts touch, holding that subject's attempts. */
  lemma JournalCoversSubjects(attempts: seq<Attempt>, subjectOf: Id -> Option<Id>)
    ensures var summaries := JournalOf(attempts, subjectOf);
            (forall i, j :: 0 <= i < j < |summaries| ==> summaries[i].subject != summaries[j].subject)
            && (forall k :: 0 <= k < |summaries| ==>
                  summaries[k].attempts == AttemptsOn(attempts, summaries[k].subject, subjectOf))
            && (forall k :: 0 <= k < |summaries| ==>
                  Attempted(attempts, summaries[k].subject, subjectOf))
            && (forall a :: a in attempts && subjectOf(a.test).Some? ==>
                  exists k :: 0 <= k < |summaries| && summaries[k].subject == subjectOf(a.test).value)
  {
    var summaries := JournalOf(attempts, subjectOf);
    var subjects := SubjectsIn(attempts, subjectOf);
    SubjectsInMembers(attempts, subjectOf);
    assert forall k :: 0 <= k < |summaries| ==> summaries[k].subject == subjects[k];
    forall k | 0 <= k < |summaries|
      ensures Attempted(attempts, summaries[k].subject, subjectOf)
    {
      assert subjects[k] in subjects;
    }
    forall a | a in attempts && subjectOf(a.test).Some?
      ensures exists k :: 0 <= k < |summaries| && summaries[k].subject == subjectOf(a.test).value
    {
      var s := subjectOf(a.test).value;
      assert OnSubject(a, s, subjectOf);
      assert s in subjects;
      var k :| 0 <= k < |subjects| && subjects[k] == s;
      assert summaries[k].subject == s;
    }
  }

  // ---------------------------------------------------------------------------
  // student_journal: the loop

  lemma AttemptsOnAppend(xs: seq<Attempt>, x: Attempt, s: Id, subjectOf: Id -> Option<Id>)
    ensures AttemptsOn(xs + [x], s, subjectOf) == AttemptsOn(xs, s, subjectOf) + (if OnSubject(x, s, subjectOf) then [x] else [])
  {
    assert (xs + [x])[..|xs|] == xs;
  }

  lemma ScoresAppend(ys: seq<Attempt>, x: Attempt)
    ensures SumScores(ys + [x]) == SumScores(ys) + x.score
    ensures MaxScore(ys + [x]) == Max(MaxScore(ys), x.score)
  {
    assert (ys + [x])[..|ys|] == ys;
  }

  lemma SubjectsInAppend(xs: seq<Attempt>, x: Attempt, subjectOf: Id -> Option<Id>)
    ensures SubjectsIn(xs + [x], subjectOf)
         == match subjectOf(x.test)
            case None => SubjectsIn(xs, subjectOf)
            case Some(s) => if s in SubjectsIn(xs, subjectOf) then SubjectsIn(xs, subjectOf) else SubjectsIn(xs, subjectOf) + [s]
  {
    assert (xs + [x])[..|xs|] == xs;
  }

  /** Where the entry for subject `s` sits, if it has one (the dictionary's membership test). */
  function IndexOfSubject(data: seq<SubjectSummary>, s: Id): (k: Option<nat>)
    ensures k.Some? ==> k.value < |data| && data[k.value].subject == s
    ensures k.None? ==> forall j :: 0 <= j < |data| ==> data[j].subject != s
  {
    if data == [] then None
    else if data[|data| - 1].subject == s then Some(|data| - 1)
    else IndexOfSubject(data[..|data| - 1], s)
  }

  /** The entries of all subjects before the averages are filled in. */
  function TalliedAll(xs: seq<Attempt>, subjectOf: Id -> Option<Id>): (r: seq<SubjectSummary>)
    ensures |r| == |SubjectsIn(xs, subjectOf)|
    ensures forall k :: 0 <= k < |r| ==> r[k] == Tallied(SubjectsIn(xs, subjectOf)[k], xs, subjectOf)
  {
    var subjects := SubjectsIn(xs, subjectOf);
    seq(|subjects|, k requires 0 <= k < |subjects| => Tallied(subjects[k], xs, subjectOf))
  }

  /** Adds one more attempt to an entry: the updates of the loop body. */
  function Bump(e: SubjectSummary, a: Attempt): SubjectSummary {
    e.(attempts := e.attempts + [a], totalScore := e.totalScore + a.score,
       maxScore := Max(e.maxScore, a.score), count := e.count + 1)
  }

  /** The entry a subject gets when it is first met. */
  function Fresh(s: Id, a: Attempt): SubjectSummary {
    Bump(SubjectSummary(s, [], 0.0, 0.0, 0, 0.0), a)
  }

  /** An attempt on subject `s` bumps the subject's tally. */
  lemma TalliedStepOn(xs: seq<Attempt>, x: Attempt, s: Id, subjectOf: Id -> Option<Id>)
    requires OnSubject(x, s, subjectOf)
    ensures Tallied(s, xs + [x], subjectOf) == Bump(Tallied(s, xs, subjectOf), x)
  {
    AttemptsOnAppend(xs, x, s, subjectOf);
    ScoresAppend(AttemptsOn(xs, s, subjectOf), x);
  }

  /** An attempt on another subject leaves the tally of `s` alone. */
  lemma TalliedStepOff(xs: seq<Attempt>, x: Attempt, s: Id, subjectOf: Id -> Option<Id>)
    requires !OnSubject(x, s, subjectOf)
    ensures Tallied(s, xs + [x], subjectOf) == Tallied(s, xs, subjectOf)
  {
    AttemptsOnAppend(xs, x, s, subjectOf);
    assert AttemptsOn(xs, s, subjectOf) + [] == AttemptsOn(xs, s, subjectOf);
  }

  /** An attempt whose module has no subject changes no entry. */
  lemma TallyStepUnfiled(done: seq<Attempt>, a: Attempt, subjectOf: Id -> Option<Id>)
    requires subjectOf(a.test).None?
    ensures TalliedAll(done + [a], subjectOf) == TalliedAll(done, subjectOf)
  {
    var data := TalliedAll(done, subjectOf);
    var next := TalliedAll(done + [a], subjectOf);
    var subjects := SubjectsIn(done, subjectOf);
    SubjectsInAppend(done, a, subjectOf);
    forall j | 0 <= j < |next| ensures next[j] == data[j] {
      TalliedStepOff(done, a, subjects[j], subjectOf);
    }
  }

  lemma FirstTally(done: seq<Attempt>, a: Attempt, s: Id, subjectOf: Id -> Option<Id>)
    requires subjectOf(a.test) == Some(s) && s !in SubjectsIn(done, subjectOf)
    ensures Tallied(s, done + [a], subjectOf) == Fresh(s, a)
  {
    TalliedStepOn(done, a, s, subjectOf);
    SubjectsInMembers(done, subjectOf);
    AttemptsOnNone(done, s, subjectOf);
    ScoresAppend([], a);
  }

  /** An attempt on a subject met for the first time adds a fresh entry at the end. */
  lemma TallyStepNew(done: seq<Attempt>, a: Attempt, s: Id, subjectOf: Id -> Option<Id>)
    requires subjectOf(a.test) == Some(s) && s !in SubjectsIn(done, subjectOf)
    ensures TalliedAll(done + [a], subjectOf) == TalliedAll(done, subjectOf) + [Fresh(s, a)]
  {
    var data := TalliedAll(done, subjectOf);
    var next := TalliedAll(done + [a], subjectOf);
    NewSubjectKeepsEntries(done, a, s, subjectOf);
    NewSubjectAppendsEntry(done, a, s, subjectOf);
    assert forall j :: 0 <= j < |next| ==> next[j] == (data + [Fresh(s, a)])[j];
  }

  lemma NewSubjectKeepsEntries(done: seq<Attempt>, a: Attempt, s: Id, subjectOf: Id -> Option<Id>)
    requires subjectOf(a.test) == Some(s) && s !in SubjectsIn(done, subjectOf)
    ensures var data := TalliedAll(done, subjectOf);
            var next := TalliedAll(done + [a], subjectOf);
            |data| < |next| && forall j :: 0 <= j < |data| ==> next[j] == data[j]
  {
    var data := TalliedAll(done, subjectOf);
    var next := TalliedAll(done + [a], subjectOf);
    var subjects := SubjectsIn(done, subjectOf);
    SubjectsInAppend(done, a, subjectOf);
    forall j | 0 <= j < |data| ensures next[j] == data[j] {
      TalliedStepOff(done, a, subjects[j], subjectOf);
    }
  }

  lemma NewSubjectAppendsEntry(done: seq<Attempt>, a: Attempt, s: Id, subjectOf: Id -> Option<Id>)
    requires subjectOf(a.test) == Some(s) && s !in SubjectsIn(done, subjectOf)
    ensures var data := TalliedAll(done, subjectOf);
            var next := TalliedAll(done + [a], subjectOf);
            |next| == |data| + 1 && next[|data|] == Fresh(s, a)
  {
    SubjectsInAppend(done, a, subjectOf);
    FirstTally(done, a, s, subjectOf);
  }

  /** The entries list the subjects in order, so a subject without an entry is not listed. */
  lemma IndexOfListedSubject(done: seq<Attempt>, s: Id, subjectOf: Id -> Option<Id>)
    ensures var k := IndexOfSubject(TalliedAll(done, subjectOf), s);
            (k.None? ==> s !in SubjectsIn(done, subjectOf))
            && (k.Some? ==> k.value < |SubjectsIn(done, subjectOf)| && SubjectsIn(done, subjectOf)[k.value] == s)
  {
    var data := TalliedAll(done, subjectOf);
    var subjects := SubjectsIn(done, subjectOf);
    assert forall j :: 0 <= j < |subjects| ==> subjects[j] == data[j].subject;
  }

  /** An attempt on a subject already present bumps that subject's entry only. */
  lemma TallyStepKnown(done: seq<Attempt>, a: Attempt, s: Id, k: int, subjectOf: Id -> Option<Id>)
    requires subjectOf(a.test) == Some(s)
    requires 0 <= k < |SubjectsIn(done, subjectOf)| && SubjectsIn(done, subjectOf)[k] == s
    ensures var data := TalliedAll(done, subjectOf);
            TalliedAll(done + [a], subjectOf) == data[k := Bump(data[k], a)]
  {
    var data := TalliedAll(done, subjectOf);
    var next := TalliedAll(done + [a], subjectOf);
    var subjects := SubjectsIn(done, subjectOf);
    SubjectsInAppend(done, a, subjectOf);
    var want := data[k := Bump(data[k], a)];
    forall j | 0 <= j < |next| ensures next[j] == want[j] {
      if j == k {
        TalliedStepOn(done, a, s, subjectOf);
      } else {
        TalliedStepOff(done, a, subjects[j], subjectOf);
      }
    }
  }

  /** The grouping loop of student_journal: one pass over the attempts, creating an
      entry when a subject is first met and otherwise updating its sum, maximum and count. */
  method TallyAttempts(attempts: seq<Attempt>, subjectOf: Id -> Option<Id>) returns (data: seq<SubjectSummary>)
    ensures data == TalliedAll(attempts, subjectOf)
  {
    data := [];
    var i := 0;
    while i < |attempts|
      invariant 0 <= i <= |attempts|
      invariant data == TalliedAll(attempts[..i], subjectOf)
    {
      var a := attempts[i];
      assert attempts[..i + 1] == attempts[..i] + [a];
      var subject := subjectOf(a.test);
      if subject.Some? {
        var k := IndexOfSubject(data, subject.value);
        IndexOfListedSubject(attempts[..i], subject.value, subjectOf);
        match k
        case None =>
          TallyStepNew(attempts[..i], a, subject.value, subjectOf);
          data := data + [Fresh(subject.value, a)];
        case Some(at) =>
          TallyStepKnown(attempts[..i], a, subject.value, at, subjectOf);
          data := data[at := Bump(data[at], a)];
      } else {
        TallyStepUnfiled(attempts[..i], a, subjectOf);
      }
      i := i + 1;
    }
    assert attempts[..i] == attempts;
  }

  /** The second loop of student_journal: each entry's average, zero for an empty entry. */
  method FillAverages(data: seq<SubjectSummary>) returns (out: seq<SubjectSummary>)
    ensures out == FinishAll(data)
  {
    out := data;
    var j := 0;
    while j < |out|
      invariant 0 <= j <= |out| == |data|
      invariant forall k :: 0 <= k < j ==> out[k] == Finished(data[k])
      invariant forall k :: j <= k < |out| ==> out[k] == data[k]
    {
      out := out[j := Finished(out[j])];
      j := j + 1;
    }
  }

  /** student_journal: refuses anyone but a student; otherwise groups the student's
      attempts by subject and fills in each subject's average. */
  method StudentJournal(u: User, attempts: seq<Attempt>, subjectOf: Id -> Option<Id>) returns (page: JournalPage)
    ensures page == StudentJournalPage(u, attempts, subjectOf)
  {
    if u.role != Student {
      return JournalDenied;
    }
    var data := TallyAttempts(attempts, subjectOf);
    data := FillAverages(data);
    page := JournalShown(data);
  }

  // ---------------------------------------------------------------------------
  // student_journal: properties

  /** Only subjects with at least one attempt appear, every attempt with a subject is
      listed under it, and every entry's average is its total over its count. */
  lemma {:induction false} JournalEntriesAreNonEmpty(xs: seq<Attempt>, subjectOf: Id -> Option<Id>, k: int)
    requires 0 <= k < |JournalOf(xs, subjectOf)|
    ensures var e := JournalOf(xs, subjectOf)[k];
            e.count == |e.attempts| > 0 && e.average == e.totalScore / (e.count as real)
            && forall a :: a in e.attempts <==> a in xs && OnSubject(a, e.subject, subjectOf)
  {
    var s := SubjectsIn(xs, subjectOf)[k];
    assert s in SubjectsIn(xs, subjectOf);
    SubjectsInMembers(xs, subjectOf);
    AttemptsOnMembers(xs, s, subjectOf);
    var a :| a in xs && OnSubject(a, s, subjectOf);
    assert a in AttemptsOn(xs, s, subjectOf);
  }

  predicate NewestFirst(xs: seq<Attempt>) {
    forall i, j :: 0 <= i < j < |xs| ==> xs[i].created >= xs[j].created
  }

  /** Grouping keeps the order of the input: from a most-recent-first list, each
      subject's attempts come out most recent first too. */
  lemma {:induction false} AttemptsOnKeepsOrder(xs: seq<Attempt>, s: Id, subjectOf: Id -> Option<Id>)
    requires NewestFirst(xs)
    ensures NewestFirst(AttemptsOn(xs, s, subjectOf))
  {
    if xs != [] {
      var front := xs[..|xs| - 1];
      var last := xs[|xs| - 1];
      var ys := AttemptsOn(front, s, subjectOf);
      assert NewestFirst(ys) by {
        assert NewestFirst(front);
        AttemptsOnKeepsOrder(front, s, subjectOf);
      }
      assert forall a :: a in ys ==> a.created >= last.created by {
        AttemptsOnMembers(front, s, subjectOf);
        forall a | a in ys ensures a.created >= last.created {
          var i :| 0 <= i < |front| && front[i] == a;
          assert xs[i] == a;
        }
      }
      assert AttemptsOn(xs, s, subjectOf) == ys + (if OnSubject(last, s, subjectOf) then [last] else []) by {
        assert xs == front + [last];
        AttemptsOnAppend(front, last, s, subjectOf);
      }
      if OnSubject(last, s, subjectOf) {
        SnocNewestFirst(ys, last);
      } else {
        assert ys + [] == ys;
      }
    }
  }

  lemma SnocNewestFirst(ys: seq<Attempt>, x: Attempt)
    requires NewestFirst(ys) && forall a :: a in ys ==> a.created >= x.created
    ensures NewestFirst(ys + [x])
  {
    var zs := ys + [x];
    forall i, j | 0 <= i < j < |zs| ensures zs[i].created >= zs[j].created {
      assert zs[i] == ys[i];
      if j < |ys| {
        assert zs[j] == ys[j];
      }
    }
  }

  lemma {:induction false} SumScoresBounds(xs: seq<Attempt>, m: real)
    requires forall a :: a in xs ==> 0.0 <= a.score <= m
    ensures 0.0 <= SumScores(xs) <= (|xs| as real) * m
  {
    if xs != [] {
      var front := xs[..|xs| - 1];
      assert forall a :: a in front ==> a in xs;
      SumScoresBounds(front, m);
      var last := xs[|xs| - 1];
      assert last in xs;
      assert SumScores(xs) == SumScores(front) + last.score;
      OneMore(|front|, m);
      assert |xs| == |front| + 1;
    }
  }

  lemma OneMore(n: nat, m: real)
    ensures ((n + 1) as real) * m == (n as real) * m + m
  {
  }

  lemma AverageAtMostMaximum(total: real, count: nat, max: real)
    requires count > 0 && 0.0 <= total <= (count as real) * max
    ensures 0.0 <= total / (count as real) <= max
  {
  }

  /** With scores between 0 and 100, every entry's average lies between 0 and its
      maximum, and the maximum is at most 100. */
  lemma JournalAveragesBounded(xs: seq<Attempt>, subjectOf: Id -> Option<Id>, k: int)
    requires forall a :: a in xs ==> 0.0 <= a.score <= 100.0
    requires 0 <= k < |JournalOf(xs, subjectOf)|
    ensures var e := JournalOf(xs, subjectOf)[k];
            0.0 <= e.average <= e.maxScore <= 100.0
  {
    var s := SubjectsIn(xs, subjectOf)[k];
    var ys := AttemptsOn(xs, s, subjectOf);
    assert ys != [] by {
      JournalEntriesAreNonEmpty(xs, subjectOf, k);
    }
    assert forall a :: a in ys ==> 0.0 <= a.score <= 100.0 by {
      AttemptsOnMembers(xs, s, subjectOf);
    }
    EntryAverageBounded(ys);
  }

  /** The mean of a non-empty list of scores between 0 and 100 lies between 0 and the
      list's maximum, which is at most 100. */
  lemma EntryAverageBounded(ys: seq<Attempt>)
    requires ys != [] && forall a :: a in ys ==> 0.0 <= a.score <= 100.0
    ensures 0.0 <= Average(SumScores(ys), |ys|) <= MaxScore(ys) <= 100.0
  {
    MaxScoreIsMaximum(ys);
    SumScoresBounds(ys, MaxScore(ys));
    AverageAtMostMaximum(SumScores(ys), |ys|, MaxScore(ys));
  }

  // ---------------------------------------------------------------------------
  // admin_journal_subject_detail

  /** `order_by('-score').first()`: the best score of a user on a test, if any attempt exists. */
  function BestScore(rs: seq<Attempt>, user: Id, test: Id): (b: Option<real>)
    ensures b.Some? <==> CountFor(rs, user, test) > 0
  {
    if rs == [] then None
    else
      var prev := BestScore(rs[..|rs| - 1], user, test);
      var last := rs[|rs| - 1];
      if !IsAttemptOf(last, user, test) then prev
      else if prev.None? then Some(last.score)
      else Some(Max(prev.value, last.score))
  }

  /** The best score is one of the user's scores on the test and no other is higher. */
  lemma {:induction false} BestScoreIsMaximum(rs: seq<Attempt>, user: Id, test: Id)
    ensures var b := BestScore(rs, user, test);
            b.Some? ==> (exists a :: a in rs && IsAttemptOf(a, user, test) && a.score == b.value)
                        && forall a :: a in rs && IsAttemptOf(a, user, test) ==> a.score <= b.value
  {
    if rs != [] {
      var front := rs[..|rs| - 1];
      var last := rs[|rs| - 1];
      assert rs == front + [last];
      BestScoreIsMaximum(front, user, test);
      assert forall a :: a in front ==> a in rs;
    }
  }

  /** The students query: users with the student role who have an attempt on one of
      the subject's tests, in the order of `users`. */
  function SubjectStudents(users: seq<User>, rs: seq<Attempt>, tests: set<Id>): (r: seq<User>)
    ensures |r| <= |users|
  {
    if users == [] then []
    else
      var u := users[0];
      (if u.role == Student && TookOneOf(rs, u.id, tests) then [u] else [])
      + SubjectStudents(users[1..], rs, tests)
  }

  predicate TookOneOf(rs: seq<Attempt>, user: Id, tests: set<Id>) {
    exists a :: a in rs && a.user == user && a.test in tests
  }

  /** The students listed are exactly the student-role users with an attempt on one
      of the tests. */
  lemma {:induction false} SubjectStudentsMembers(users: seq<User>, rs: seq<Attempt>, tests: set<Id>)
    ensures forall u :: u in SubjectStudents(users, rs, tests) <==> u in users && u.role == Student && TookOneOf(rs, u.id, tests)
  {
    if users != [] {
      SubjectStudentsMembers(users[1..], rs, tests);
      assert users == [users[0]] + users[1..];
    }
  }

  function TestIds(tests: seq<Test>): set<Id> { set t | t in tests :: t.id }

  datatype Cell = Cell(test: Id, score: Option<real>, attempts: nat)
  datatype MatrixRow = MatrixRow(student: User, cells: seq<Cell>)

  /** The cell of one student and one test: best score (or none) and attempt count. */
  function CellFor(rs: seq<Attempt>, student: Id, test: Id): (c: Cell)
    ensures c.test == test && c.attempts == CountFor(rs, student, test)
    ensures c.score.Some? <==> c.attempts > 0
    ensures c.score.Some? ==> forall a :: a in rs && IsAttemptOf(a, student, test) ==> a.score <= c.score.value
    ensures c.score.Some? ==> exists a :: a in rs && IsAttemptOf(a, student, test) && a.score == c.score.value
  {
    BestScoreIsMaximum(rs, student, test);
    Cell(test, BestScore(rs, student, test), CountFor(rs, student, test))
  }

  /** The cells of one student's row, one per test, in the order of the tests. */
  function RowCells(rs: seq<Attempt>, student: Id, tests: seq<Test>): (r: seq<Cell>)
    ensures |r| == |tests|
    ensures forall j :: 0 <= j < |tests| ==> r[j] == CellFor(rs, student, tests[j].id)
  {
    if tests == [] then []
    else RowCells(rs, student, tests[..|tests| - 1]) + [CellFor(rs, student, tests[|tests| - 1].id)]
  }

  /** The inner loop of the matrix: one cell per test for one student. */
  method StudentRow(rs: seq<Attempt>, student: Id, tests: seq<Test>) returns (cells: seq<Cell>)
    ensures cells == RowCells(rs, student, tests)
  {
    cells := [];
    var j := 0;
    while j < |tests|
      invariant 0 <= j <= |tests|
      invariant cells == RowCells(rs, student, tests[..j])
    {
      var test := tests[j];
      assert tests[..j + 1][..j] == tests[..j];
      var best := BestScore(rs, student, test.id);
      cells := cells + [Cell(test.id, best, CountFor(rs, student, test.id))];
      j := j + 1;
    }
    assert tests[..j] == tests;
  }

  /** The matrix rows of a list of students, one per student in order. */
  function MatrixRows(students: seq<User>, rs: seq<Attempt>, tests: seq<Test>): (m: seq<MatrixRow>)
    ensures |m| == |students|
    ensures forall i :: 0 <= i < |m| ==> m[i] == MatrixRow(students[i], RowCells(rs, students[i].id, tests))
  {
    if students == [] then []
    else
      var front := students[..|students| - 1];
      var last := students[|students| - 1];
      assert forall i :: 0 <= i < |front| ==> front[i] == students[i];
      MatrixRows(front, rs, tests) + [MatrixRow(last, RowCells(rs, last.id, tests))]
  }

  /** admin_journal_subject_detail: one row per student of the subject, one cell per
      test of the subject, filled by two nested loops. */
  method SubjectMatrix(users: seq<User>, tests: seq<Test>, rs: seq<Attempt>) returns (matrix: seq<MatrixRow>)
    ensures var students := SubjectStudents(users, rs, TestIds(tests));
            |matrix| == |students| &&
            forall i :: 0 <= i < |matrix| ==> matrix[i] == MatrixRow(students[i], RowCells(rs, students[i].id, tests))
  {
    var students := SubjectStudents(users, rs, TestIds(tests));
    matrix := [];
    var i := 0;
    assert students[..0] == [];
    while i < |students|
      invariant 0 <= i <= |students|
      invariant matrix == MatrixRows(students[..i], rs, tests)
    {
      var cells := StudentRow(rs, students[i].id, tests);
      assert students[..i + 1][..i] == students[..i];
      matrix := matrix + [MatrixRow(students[i], cells)];
      i := i + 1;
    }
    assert students[..i] == students;
  }

  /** Three attempts scoring 40, 90 and 60: the cell shows 90 and three attempts. */
  lemma BestOfThree(user: Id, test: Id, t1: int, t2: int, t3: int)
    ensures var rs := [Attempt(user, test, 40.0, t1), Attempt(user, test, 90.0, t2), Attempt(user, test, 60.0, t3)];
            BestScore(rs, user, test) == Some(90.0) && CountFor(rs, user, test) == 3
  {
    var rs := [Attempt(user, test, 40.0, t1), Attempt(user, test, 90.0, t2), Attempt(user, test, 60.0, t3)];
    var one, two := [rs[0]], [rs[0], rs[1]];
    assert rs[..2] == two && two[..1] == one && one[..0] == [];
    assert BestScore(one, user, test) == Some(40.0) && CountFor(one, user, test) == 1;
    assert BestScore(two, user, test) == Some(90.0) && CountFor(two, user, test) == 2;
  }
}

=== FILE: lecture_content.dfy ===
/** What the lecture page shows: after the access check, the file kind decides
    whether the page carries converted HTML, a fixed fallback message, or no content
    at all, beside the file's URL, which is always passed. Reading a media file and
    the Markdown and DOCX converters are foreign code: they are parameters here, and
    each may fail. */
module LectureContent {
  import opened Common
  import opened Models
  import opened Access

  /** The storage and converters the page depends on. `readText` opens the stored file
      as UTF-8 text, `readBytes` opens it in binary mode, `url` resolves its public URL;
      `mammoth` is `None` when the DOCX converter could not be imported. */
  datatype Environment = Environment(
    url: string -> string,
    readText: string -> Option<string>,
    readBytes: string -> Option<seq<bv8>>,
    markdown: string -> Option<string>,
    mammoth: Option<seq<bv8> -> Option<string>>)

  const MarkdownFallback: string := "<p>Не удалось загрузить Markdown.</p>"
  const DocxFallback: string := "<p>Не удалось конвертировать DOCX.</p>"

  datatype LecturePage =
    | LectureDenied
    | LectureShown(lecture: Lecture, content: Option<string>, fileUrl: string)

  /** The Markdown branch: the converter's output, or the fixed message when the file
      cannot be read or converted. */
  function MarkdownContent(env: Environment, fileName: string): (r: string)
    ensures env.readText(fileName).None? ==> r == MarkdownFallback
    ensures r != MarkdownFallback ==> env.readText(fileName).Some? && env.markdown(env.readText(fileName).value) == Some(r)
  {
    match env.readText(fileName)
    case None => MarkdownFallback
    case Some(text) =>
      match env.markdown(text)
      case None => MarkdownFallback
      case Some(html) => html
  }

  /** The DOCX branch: the converter's output, or the fixed message when the file
      cannot be read or converted. */
  function DocxContent(convert: seq<bv8> -> Option<string>, env: Environment, fileName: string): (r: string)
    ensures env.readBytes(fileName).None? ==> r == DocxFallback
    ensures r != DocxFallback ==> env.readBytes(fileName).Some? && convert(env.readBytes(fileName).value) == Some(r)
  {
    match env.readBytes(fileName)
    case None => DocxFallback
    case Some(bytes) =>
      match convert(bytes)
      case None => DocxFallback
      case Some(html) => html
  }

  /** The content for a file of the given kind; `None` means the page offers the file
      URL only. */
  function Content(kind: FileKind, env: Environment, fileName: string): (r: Option<string>)
    ensures r.None? <==> kind == Pdf || kind == Other || (kind == Docx && env.mammoth.None?)
    ensures kind == Markdown ==>
              if env.readText(fileName).Some? && env.markdown(env.readText(fileName).value).Some?
              then r == env.markdown(env.readText(fileName).value)
              else r == Some(MarkdownFallback)
    ensures kind == Docx && env.mammoth.Some? ==>
              if env.readBytes(fileName).Some? && env.mammoth.value(env.readBytes(fileName).value).Some?
              then r == env.mammoth.value(env.readBytes(fileName).value)
              else r == Some(DocxFallback)
  {
    match kind
    case Markdown => Some(MarkdownContent(env, fileName))
    case Docx =>
      (match env.mammoth
       case None => None
       case Some(convert) => Some(DocxContent(convert, env, fileName)))
    case _ => None
  }

  /** lecture_detail: a refused student gets only the error state; otherwise the page
      always carries the lecture and its URL, and the content its kind calls for. */
  function LectureDetail(u: User, lecture: Lecture, env: Environment): (r: LecturePage)
    ensures r.LectureDenied? <==> !CanOpenLecture(u, lecture)
    ensures r.LectureShown? ==> r.lecture == lecture && r.fileUrl == env.url(lecture.fileName)
    ensures r.LectureShown? ==> r.content == Content(FileExt(lecture.fileName), env, lecture.fileName)
  {
    if !CanOpenLecture(u, lecture) then LectureDenied
    else
      var kind := FileExt(lecture.fileName);
      LectureShown(lecture, Content(kind, env, lecture.fileName), env.url(lecture.fileName))
  }

  /** A Markdown lecture whose file cannot be read still renders: its content is the
      fixed fallback message. */
  lemma UnreadableMarkdownFallsBack(u: User, lecture: Lecture, env: Environment)
    requires CanOpenLecture(u, lecture)
    requires FileExt(lecture.fileName) == Markdown && env.readText(lecture.fileName).None?
    ensures LectureDetail(u, lecture, env) == LectureShown(lecture, Some(MarkdownFallback), env.url(lecture.fileName))
  {
  }
}

=== FILE: models.dfy ===
/** The entities of the learning-management schema and the logic that the model
    classes carry themselves: the lecture file classification, the upload path of a
    lecture file, the default attempt limit of a test and the day names, key and
    ordering of a timetable entry. Foreign keys are ids; a reverse relation that a
    view walks (the questions of a test) is stored as the sequence the query returns. */
module Models {
  import opened Common

  type Id = int

  /** The role column is free text with two declared choices; any other stored value
      is kept as it is, because the views compare against the two literals. */
  datatype Role = Admin | Student | OtherRole(name: string)

  /** A role as the column stores it: 'admin' and 'student' are always read as the two
      choices, so an `OtherRole` never carries either literal. */
  type StoredRole = r: Role | r.OtherRole? ==> r.name != "admin" && r.name != "student" witness Admin

  datatype User = User(id: Id, role: StoredRole, studyGroup: Option<Id>)

  /** The request's user: the framework's anonymous user, or a signed-in account. */
  datatype Viewer = Anonymous | SignedIn(user: User)

  datatype StudyGroup = StudyGroup(id: Id, name: string)

  datatype Subject = Subject(id: Id, name: string, group: Id)

  /** A module's subject is nullable. */
  datatype Module = Module(id: Id, name: string, subject: Option<Id>)

  datatype Lecture = Lecture(id: Id, title: string, fileName: string, moduleId: Id, assignedGroups: set<Id>)

  /** `attemptsLimit` is an unconstrained integer column: zero and negative limits can be stored. */
  datatype Test = Test(id: Id, name: string, moduleId: Id, attemptsLimit: int, questions: seq<Id>)

  datatype Choice = Choice(id: Id, question: Id, text: string, correct: bool)

  /** A test attempt is written once and never updated; `created` is the timestamp
      the database assigns on insert. Scores are exact reals. */
  datatype Attempt = Attempt(user: Id, test: Id, score: real, created: int)

  // ---------------------------------------------------------------------------
  // Lecture.file_ext

  datatype FileKind = Pdf | Markdown | Docx | Other

  lemma LastCharOfSuffix(s: string, suffix: string)
    requires suffix != [] && EndsWith(s, suffix)
    ensures s[|s| - 1] == suffix[|suffix| - 1]
  {
    assert s[|s| - |suffix|..][|suffix| - 1] == s[|s| - 1];
  }

  /** No name ends in two of ".pdf", ".md" or ".markdown" and ".docx": their last letters differ. */
  lemma SuffixesDisjoint(name: string)
    ensures EndsWith(name, ".pdf") ==> !EndsWith(name, ".md") && !EndsWith(name, ".markdown") && !EndsWith(name, ".docx")
    ensures EndsWith(name, ".md") || EndsWith(name, ".markdown") ==> !EndsWith(name, ".docx")
  {
    if EndsWith(name, ".pdf") { LastCharOfSuffix(name, ".pdf"); }
    if EndsWith(name, ".md") { LastCharOfSuffix(name, ".md"); }
    if EndsWith(name, ".markdown") { LastCharOfSuffix(name, ".markdown"); }
    if EndsWith(name, ".docx") { LastCharOfSuffix(name, ".docx"); }
  }

  /** The kind of a lecture file, decided by the suffix of its lower-cased name. The
      four suffix groups end in different letters, so at most one of them matches and
      the order in which they are tested does not matter. */
  function FileExt(fileName: string): (k: FileKind)
    ensures k == Pdf <==> EndsWith(Lower(fileName), ".pdf")
    ensures k == Markdown <==> EndsWith(Lower(fileName), ".md") || EndsWith(Lower(fileName), ".markdown")
    ensures k == Docx <==> EndsWith(Lower(fileName), ".docx")
    ensures k == Other <==> !EndsWith(Lower(fileName), ".pdf") && !EndsWith(Lower(fileName), ".md")
                            && !EndsWith(Lower(fileName), ".markdown") && !EndsWith(Lower(fileName), ".docx")
  {
    var name := Lower(fileName);
    SuffixesDisjoint(name);
    if EndsWith(name, ".pdf") then Pdf
    else if EndsWith(name, ".md") || EndsWith(name, ".markdown") then Markdown
    else if EndsWith(name, ".docx") then Docx
    else Other
  }

  /** Two names that differ only in the case of their letters. */
  predicate SameUpToCase(a: string, b: string) {
    |a| == |b| && forall i :: 0 <= i < |a| ==> LowerChar(a[i]) == LowerChar(b[i])
  }

  /** The classification ignores letter case: "Notes.PDF" and "notes.pdf" are both PDF files. */
  lemma FileExtIgnoresCase(a: string, b: string)
    requires SameUpToCase(a, b)
    ensures FileExt(a) == FileExt(b)
  {
    assert Lower(a) == Lower(b);
  }

  lemma FirstCharOfSuffix(s: string, suffix: string)
    ensures suffix != [] && EndsWith(s, suffix) ==> s[|s| - |suffix|] == suffix[0]
  {
    if suffix != [] && EndsWith(s, suffix) {
      assert s[|s| - |suffix|..][0] == s[|s| - |suffix|];
    }
  }

  /** A name without a dot, whatever its letters, is never one of the three known kinds. */
  lemma FileExtWithoutDot(fileName: string)
    requires forall i :: 0 <= i < |fileName| ==> fileName[i] != '.'
    ensures FileExt(fileName) == Other
  {
    var name := Lower(fileName);
    assert forall i :: 0 <= i < |name| ==> name[i] != '.';
    FirstCharOfSuffix(name, ".pdf");
    FirstCharOfSuffix(name, ".md");
    FirstCharOfSuffix(name, ".markdown");
    FirstCharOfSuffix(name, ".docx");
    assert !EndsWith(name, ".pdf") && !EndsWith(name, ".md") && !EndsWith(name, ".markdown") && !EndsWith(name, ".docx");
  }

  // ---------------------------------------------------------------------------
  // lecture_upload_to

  /** The names reached from a lecture through module -> subject -> group. */
  datatype SubjectPath = SubjectPath(groupName: string, subjectName: string)

  function UploadPath(groupName: string, subjectName: string, fileName: string): string {
    "lectures/" + groupName + "/" + subjectName + "/" + fileName
  }

  /** The storage path of an uploaded lecture file. A lecture whose module has no
      subject has no group or subject name to build the path from: the attribute
      lookup fails, which is `None` here. */
  function LectureUploadTo(subject: Option<SubjectPath>, fileName: string): (p: Option<string>)
    ensures p.Some? <==> subject.Some?
    ensures p.Some? ==> StartsWith(p.value, "lectures/") && EndsWith(p.value, fileName)
    ensures p.Some? ==> |p.value| == 11 + |subject.value.groupName| + |subject.value.subjectName| + |fileName|
  {
    match subject
    case None => None
    case Some(sp) =>
      var p := UploadPath(sp.groupName, sp.subjectName, fileName);
      assert p[..9] == "lectures/";
      assert p[|p| - |fileName|..] == fileName;
      Some(p)
  }

  lemma SplitAtFirstSlash(a: string, x: string, b: string, y: string)
    requires '/' !in a && '/' !in b
    requires a + "/" + x == b + "/" + y
    ensures a == b && x == y
  {
    var u := a + "/" + x;
    var v := b + "/" + y;
    assert u[|a|] == '/' && v[|b|] == '/';
    assert forall k :: 0 <= k < |a| ==> u[k] == a[k] != '/';
    assert forall k :: 0 <= k < |b| ==> v[k] == b[k] != '/';
    assert |a| == |b|;
    assert a == u[..|a|] == b;
    assert x == u[|a| + 1..] == y;
  }

  /** While group and subject names contain no slash, two stored paths coincide only
      for the same group, subject and file name: files of different folders never collide. */
  lemma UploadPathInjective(g1: string, s1: string, f1: string, g2: string, s2: string, f2: string)
    requires '/' !in g1 && '/' !in g2 && '/' !in s1 && '/' !in s2
    requires UploadPath(g1, s1, f1) == UploadPath(g2, s2, f2)
    ensures g1 == g2 && s1 == s2 && f1 == f2
  {
    var p := UploadPath(g1, s1, f1);
    assert p[9..] == g1 + "/" + (s1 + "/" + f1);
    assert UploadPath(g2, s2, f2)[9..] == g2 + "/" + (s2 + "/" + f2);
    SplitAtFirstSlash(g1, s1 + "/" + f1, g2, s2 + "/" + f2);
    SplitAtFirstSlash(s1, f1, s2, f2);
  }

  // ---------------------------------------------------------------------------
  // Test.attempts_limit

  /** The value a new test gets when no limit is given. */
  const DefaultAttemptsLimit: int := 3

  function NewTest(id: Id, name: string, moduleId: Id, questions: seq<Id>): (t: Test)
    ensures t.attemptsLimit == 3 && t.id == id && t.moduleId == moduleId && t.questions == questions
  {
    Test(id, name, moduleId, DefaultAttemptsLimit, questions)
  }

  // ---------------------------------------------------------------------------
  // Schedule

  /** The range of an integer column: SQLite stores integers in 64 signed bits, and an
      insert of a larger Python integer raises. */
  const IntegerColumnMin: int := -0x8000_0000_0000_0000
  const IntegerColumnMax: int := 0x7FFF_FFFF_FFFF_FFFF

  predicate FitsIntegerColumn(n: int) { IntegerColumnMin <= n <= IntegerColumnMax }

  /** A start time, in whole seconds after midnight. */
  type TimeOfDay = t: int | 0 <= t < 86400

  /** One timetable entry. The day is stored as the integer that was posted; the
      seven day choices are a declaration the insert path does not enforce. */
  datatype Schedule = Schedule(id: Id, group: Id, day: int, time: TimeOfDay, subject: string, room: string)

  const DayChoices: seq<(int, string)> := [
    (1, "Понедельник"), (2, "Вторник"), (3, "Среда"), (4, "Четверг"),
    (5, "Пятница"), (6, "Суббота"), (7, "Воскресенье")
  ]

  /** The day name `__str__` looks up in the dictionary built from the day choices, whose
      keys are 1..7 in order; any other day makes the lookup raise `KeyError`, which is `None`. */
  function DayName(day: int): (r: Option<string>)
    ensures r.Some? <==> 1 <= day <= 7
    ensures r.Some? ==> (day, r.value) in DayChoices
  {
    if 1 <= day <= 7 then Some(DayChoices[day - 1].1) else None
  }

  /** Each of the seven days has a name of its own. */
  lemma DayNamesDistinct(d1: int, d2: int)
    requires 1 <= d1 <= 7 && 1 <= d2 <= 7 && d1 != d2
    ensures DayName(d1) != DayName(d2)
  {
  }

  function TwoDigits(n: nat): (s: string)
    requires n < 100
    ensures |s| == 2 && AllDigits(s) && DigitsValue(s) == n
  {
    var s := [DigitChar(n / 10), DigitChar(n % 10)];
    assert s[..1] == [DigitChar(n / 10)] && s[..1][..0] == [];
    assert DigitsValue(s[..1]) == n / 10;
    s
  }

  /** "HH:MM:SS": three two-digit fields, separated by colons, that denote the time `t`. */
  predicate ClockText(s: string, t: int) {
    |s| == 8 && s[2] == ':' && s[5] == ':'
    && AllDigits(s[..2]) && AllDigits(s[3..5]) && AllDigits(s[6..])
    && DigitsValue(s[..2]) * 3600 + DigitsValue(s[3..5]) * 60 + DigitsValue(s[6..]) == t
  }

  /** Python's `str()` of a `datetime.time` with no microseconds: "HH:MM:SS". */
  function FormatTime(t: TimeOfDay): (s: string)
    ensures |s| == 8 && s[2] == ':' && s[5] == ':'
    ensures AllDigits(s[..2]) && AllDigits(s[3..5]) && AllDigits(s[6..])
    ensures DigitsValue(s[..2]) * 3600 + DigitsValue(s[3..5]) * 60 + DigitsValue(s[6..]) == t
  {
    ClockFields(t);
    var hh, mm, ss := TwoDigits(t / 3600), TwoDigits(t / 60 % 60), TwoDigits(t % 60);
    var s := hh + ":" + mm + ":" + ss;
    assert s[..2] == hh && s[3..5] == mm && s[6..] == ss;
    s
  }

  /** Hours, minutes and seconds of a time of day, and how they recombine. */
  lemma ClockFields(t: TimeOfDay)
    ensures t / 3600 < 24 && t / 60 % 60 < 60 && t % 60 < 60
    ensures (t / 3600) * 3600 + (t / 60 % 60) * 60 + t % 60 == t
  {
  }

  /** `Schedule.__str__`: group name, day name, start time and subject label. A row
      whose day is outside 1..7 cannot be printed. */
  function ScheduleStr(groupName: string, s: Schedule): (r: Option<string>)
    ensures r.Some? <==> 1 <= s.day <= 7
    ensures r.Some? ==> var head := groupName + " - " + DayName(s.day).value + " ";
                        |r.value| == |head| + 8 + 3 + |s.subject|
                        && r.value[..|head|] == head
                        && ClockText(r.value[|head|..|head| + 8], s.time)
                        && r.value[|head| + 8..] == " - " + s.subject
  {
    match DayName(s.day)
    case None => None
    case Some(dayName) =>
      var head := groupName + " - " + dayName + " ";
      var tail := " - " + s.subject;
      var clock := FormatTime(s.time);
      var r := head + clock + tail;
      assert r[..|head|] == head;
      assert r[|head|..|head| + 8] == clock;
      assert r[|head| + 8..] == tail;
      Some(r)
  }

  /** Meta.unique_together: two rows of the same group never share a day and a start time. */
  predicate SameSlot(a: Schedule, b: Schedule) {
    a.group == b.group && a.day == b.day && a.time == b.time
  }

  /** unique_together: no two rows, in either order, share a group, day and time. */
  predicate UniqueSlots(rows: seq<Schedule>): (b: bool)
    ensures b <==> forall i, j :: 0 <= i < |rows| && 0 <= j < |rows| && i != j ==> !SameSlot(rows[i], rows[j])
  {
    forall i, j :: 0 <= i < j < |rows| ==> !SameSlot(rows[i], rows[j])
  }

  /** Meta.ordering: by day of week, then by start time. */
  predicate OrderedBefore(a: Schedule, b: Schedule) {
    a.day < b.day || (a.day == b.day && a.time <= b.time)
  }

  /** Rows in the order of Meta.ordering, which holds exactly when each row is in
      order with the next one. */
  predicate InScheduleOrder(rows: seq<Schedule>): (b: bool)
    ensures b <==> forall i :: 0 <= i < |rows| - 1 ==> OrderedBefore(rows[i], rows[i + 1])
  {
    AdjacentOrderSuffices(rows);
    forall i, j :: 0 <= i < j < |rows| ==> OrderedBefore(rows[i], rows[j])
  }

  lemma {:induction false} AdjacentOrderSuffices(rows: seq<Schedule>)
    ensures (forall i :: 0 <= i < |rows| - 1 ==> OrderedBefore(rows[i], rows[i + 1]))
            ==> forall i, j :: 0 <= i < j < |rows| ==> OrderedBefore(rows[i], rows[j])
  {
    if |rows| > 1 && forall i :: 0 <= i < |rows| - 1 ==> OrderedBefore(rows[i], rows[i + 1]) {
      var tail := rows[1..];
      forall i | 0 <= i < |tail| - 1
        ensures OrderedBefore(tail[i], tail[i + 1])
      {
        assert tail[i] == rows[i + 1] && tail[i + 1] == rows[i + 2];
      }
      AdjacentOrderSuffices(tail);
      forall i, j | 0 <= i < j < |rows|
        ensures OrderedBefore(rows[i], rows[j])
      {
        if j > 1 {
          assert rows[j] == tail[j - 1];
          if i > 0 {
            assert rows[i] == tail[i - 1];
          } else {
            assert rows[1] == tail[0];
          }
        }
      }
    }
  }

  /** Within one group the slot key is a strict order: an ordered, duplicate-free
      listing of a group has strictly increasing (day, time) keys. */
  lemma GroupListingStrictlyOrdered(rows: seq<Schedule>, i: int, j: int)
    requires UniqueSlots(rows) && InScheduleOrder(rows)
    requires 0 <= i < j < |rows| && rows[i].group == rows[j].group
    ensures rows[i].day < rows[j].day || (rows[i].day == rows[j].day && rows[i].time < rows[j].time)
  {
  }
}

=== FILE: schedule_editing.dfy ===
/**
  The per-group timetable editor (`admin_schedule_group`): the Schedule table, the
  'add' and 'delete' form actions and the group's listing. The table keeps its rows in
  `Meta.ordering` order, (day of week, start time), so that every listing of it is a
  filter of it; the database's uniqueness key on (group, day of week, time) and the
  uniqueness of ids are part of the table's invariant.
*/
module ScheduleEditing {
  import opened Common
  import opened Models

  // ---------------------------------------------------------------------------
  // The table and its invariant

  /** Strictly earlier in the (day, time) order. */
  predicate KeyLess(a: Schedule, b: Schedule) {
    a.day < b.day || (a.day == b.day && a.time < b.time)
  }

  /** Ordered by (day, time), no two rows of a group in one slot, no two rows with one id. */
  predicate WellFormed(rows: seq<Schedule>) {
    forall i, j :: 0 <= i < j < |rows| ==>
      OrderedBefore(rows[i], rows[j]) && !SameSlot(rows[i], rows[j]) && rows[i].id != rows[j].id
  }

  /** The table's invariant: well formed, and every id below the next one to be handed out. */
  predicate TableInvariant(rows: seq<Schedule>, nextId: Id) {
    WellFormed(rows) && forall y :: y in rows ==> y.id < nextId
  }

  lemma ConsWellFormed(h: Schedule, t: seq<Schedule>)
    requires WellFormed(t)
    requires forall y :: y in t ==> OrderedBefore(h, y) && !SameSlot(h, y) && h.id != y.id
    ensures WellFormed([h] + t)
  {
    var s := [h] + t;
    forall i, j | 0 <= i < j < |s|
      ensures OrderedBefore(s[i], s[j]) && !SameSlot(s[i], s[j]) && s[i].id != s[j].id
    {
      if i == 0 {
        assert s[j] in t;
      } else {
        assert s[i] == t[i - 1] && s[j] == t[j - 1];
      }
    }
  }

  lemma TailWellFormed(rows: seq<Schedule>)
    requires rows != [] && WellFormed(rows)
    ensures WellFormed(rows[1..])
    ensures forall y :: y in rows[1..] ==> OrderedBefore(rows[0], y) && !SameSlot(rows[0], y) && rows[0].id != y.id
  {
    forall y | y in rows[1..]
      ensures OrderedBefore(rows[0], y) && !SameSlot(rows[0], y) && rows[0].id != y.id
    {
      var j :| 0 <= j < |rows[1..]| && rows[1..][j] == y;
      assert rows[j + 1] == y;
    }
  }

  // ---------------------------------------------------------------------------
  // Inserting in order

  /** Places `x` after every row whose (day, time) is not later than its own. */
  function InsertSorted(rows: seq<Schedule>, x: Schedule): (r: seq<Schedule>)
    ensures |r| == |rows| + 1
    ensures multiset(r) == multiset(rows) + multiset{x}
  {
    if rows == [] then [x]
    else if KeyLess(x, rows[0]) then [x] + rows
    else
      assert rows == [rows[0]] + rows[1..];
      [rows[0]] + InsertSorted(rows[1..], x)
  }

  lemma {:induction false} InsertSortedWellFormed(rows: seq<Schedule>, x: Schedule)
    requires WellFormed(rows)
    requires forall y :: y in rows ==> !SameSlot(x, y) && x.id != y.id
    ensures WellFormed(InsertSorted(rows, x))
  {
    if rows == [] {
    } else if KeyLess(x, rows[0]) {
      TailWellFormed(rows);
      assert forall y :: y in rows ==> y == rows[0] || y in rows[1..];
      ConsWellFormed(x, rows);
    } else {
      var t := rows[1..];
      TailWellFormed(rows);
      assert forall y :: y in t ==> y in rows;
      InsertSortedWellFormed(t, x);
      var r := InsertSorted(t, x);
      assert forall y :: y in r ==> y in multiset(r);
      assert forall y :: y in r ==> y == x || y in t;
      ConsWellFormed(rows[0], r);
    }
  }

  // ---------------------------------------------------------------------------
  // Filtering

  /** The rows satisfying `keep`, in table order. */
  function Where(rows: seq<Schedule>, keep: Schedule -> bool): (r: seq<Schedule>)
    ensures |r| <= |rows|
    ensures forall y :: y in r <==> y in rows && keep(y)
  {
    if rows == [] then []
    else
      assert rows == [rows[0]] + rows[1..];
      (if keep(rows[0]) then [rows[0]] else []) + Where(rows[1..], keep)
  }

  lemma {:induction false} WhereWellFormed(rows: seq<Schedule>, keep: Schedule -> bool)
    requires WellFormed(rows)
    ensures WellFormed(Where(rows, keep))
  {
    if rows != [] {
      TailWellFormed(rows);
      WhereWellFormed(rows[1..], keep);
      if keep(rows[0]) {
        ConsWellFormed(rows[0], Where(rows[1..], keep));
      }
    }
  }

  lemma {:induction false} WhereKeepsAll(rows: seq<Schedule>, keep: Schedule -> bool)
    requires forall y :: y in rows ==> keep(y)
    ensures Where(rows, keep) == rows
  {
    if rows != [] {
      assert forall y :: y in rows[1..] ==> y in rows;
      WhereKeepsAll(rows[1..], keep);
    }
  }

  /** `Schedule.objects.filter(group=group).order_by('day_of_week', 'time')`. */
  function GroupSchedule(rows: seq<Schedule>, group: Id): (r: seq<Schedule>)
    ensures forall y :: y in r <==> y in rows && y.group == group
  {
    Where(rows, (y: Schedule) => y.group == group)
  }

  /** `Schedule.objects.filter(id=id, group=group).delete()`: the table without the
      row that has this id and belongs to this group. */
  function Remove(rows: seq<Schedule>, id: Id, group: Id): (r: seq<Schedule>)
    ensures forall y :: y in r <==> y in rows && !(y.id == id && y.group == group)
  {
    Where(rows, (y: Schedule) => !(y.id == id && y.group == group))
  }

  /** A group's listing is in (day, time) order with strictly increasing keys. */
  lemma GroupScheduleOrdered(rows: seq<Schedule>, group: Id)
    requires WellFormed(rows)
    ensures var listing := GroupSchedule(rows, group);
            InScheduleOrder(listing) && UniqueSlots(listing)
            && forall i, j :: 0 <= i < j < |listing| ==> KeyLess(listing[i], listing[j])
  {
    WhereWellFormed(rows, (y: Schedule) => y.group == group);
  }

  // ---------------------------------------------------------------------------
  // The form

  /** The posted form: `request.POST.get(key)` gives the field's value, if sent. */
  type Form = map<string, string>

  function Field(form: Form, key: string): Option<string> {
    if key in form then Some(form[key]) else None
  }

  /** Python truthiness of a field: sent and not empty. */
  predicate Filled(v: Option<string>) {
    v.Some? && v.value != ""
  }

  datatype Response =
    | Redirect(group: Id)
    | ServerError
    | Listing(rows: seq<Schedule>, days: seq<(int, string)>)

  /** The GET page: the group's rows in order, with the day choices for the form. */
  function GroupPage(rows: seq<Schedule>, group: Id): (r: Response)
    ensures r.Listing? && r.days == DayChoices
    ensures forall y :: y in r.rows <==> y in rows && y.group == group
  {
    Listing(GroupSchedule(rows, group), DayChoices)
  }

  /** The row the 'add' action creates, or `None` when it creates nothing: a missing or
      empty day, time or subject skips the create; a day `int()` rejects or the integer
      column cannot hold, a time the field cannot parse, or a slot the group already
      uses makes the create raise, and the exception is swallowed. The day is not checked against the day choices. */
  function NewRow(rows: seq<Schedule>, nextId: Id, group: Id, form: Form,
                  parseTime: string -> Option<TimeOfDay>): (r: Option<Schedule>)
    ensures r.Some? ==> Filled(Field(form, "day_of_week")) && Filled(Field(form, "time"))
                        && Filled(Field(form, "subject"))
    ensures r.Some? ==> r.value.id == nextId && r.value.group == group
                        && Some(r.value.day) == ParseInt(Field(form, "day_of_week").value)
                        && Some(r.value.time) == parseTime(Field(form, "time").value)
                        && r.value.subject == Field(form, "subject").value
    ensures r.Some? ==> FitsIntegerColumn(r.value.day)
    ensures r.Some? ==> forall y :: y in rows ==> !SameSlot(y, r.value)
  {
    var day, time, subject := Field(form, "day_of_week"), Field(form, "time"), Field(form, "subject");
    var room := if "room" in form then form["room"] else "";
    if !(Filled(day) && Filled(time) && Filled(subject)) then None
    else
      match (ParseInt(day.value), parseTime(time.value))
      case (Some(d), Some(t)) =>
        if !FitsIntegerColumn(d) then None
        else
          var row := Schedule(nextId, group, d, t, subject.value, room);
          if exists y :: y in rows && SameSlot(y, row) then None else Some(row)
      case _ => None
  }

  datatype PostResult = PostResult(rows: seq<Schedule>, nextId: Id, response: Response)

  /** The POST branch of `admin_schedule_group`: the new table and the response. Every
      path redirects back to the group's page, except a delete whose id is not a
      number, where the lookup raises outside any handler. */
  function Post(rows: seq<Schedule>, nextId: Id, group: Id, form: Form,
                parseTime: string -> Option<TimeOfDay>): (r: PostResult)
    ensures r.response == Redirect(group) || r.response == ServerError
    ensures r.response == ServerError ==> r.rows == rows
  {
    var action := Field(form, "action");
    if action == Some("add") then
      match NewRow(rows, nextId, group, form, parseTime)
      case None => PostResult(rows, nextId, Redirect(group))
      case Some(row) => PostResult(InsertSorted(rows, row), nextId + 1, Redirect(group))
    else if action == Some("delete") then
      match Field(form, "schedule_id")
      case None => PostResult(rows, nextId, Redirect(group))
      case Some(raw) =>
        match ParseInt(raw)
        case None => PostResult(rows, nextId, ServerError)
        case Some(id) => PostResult(Remove(rows, id, group), nextId, Redirect(group))
    else PostResult(rows, nextId, Redirect(group))
  }

  // ---------------------------------------------------------------------------
  // Properties of the edits

  /** Every POST keeps the table ordered, free of slot clashes and of id clashes. */
  lemma PostKeepsInvariant(rows: seq<Schedule>, nextId: Id, group: Id, form: Form,
                           parseTime: string -> Option<TimeOfDay>)
    requires TableInvariant(rows, nextId)
    ensures var r := Post(rows, nextId, group, form, parseTime);
            TableInvariant(r.rows, r.nextId)
  {
    var action := Field(form, "action");
    if action == Some("add") {
      var row := NewRow(rows, nextId, group, form, parseTime);
      if row.Some? {
        InsertSortedWellFormed(rows, row.value);
        var r := InsertSorted(rows, row.value);
        assert forall y :: y in r ==> y in multiset(r);
        assert forall y :: y in r ==> y == row.value || y in rows;
      }
    } else if action == Some("delete") {
      var raw := Field(form, "schedule_id");
      if raw.Some? && ParseInt(raw.value).Some? {
        var id := ParseInt(raw.value).value;
        WhereWellFormed(rows, (y: Schedule) => !(y.id == id && y.group == group));
      }
    }
  }

  /** 'add' with the day, the time or the subject missing or empty changes nothing. */
  lemma AddNeedsDayTimeAndSubject(rows: seq<Schedule>, nextId: Id, group: Id, form: Form,
                                  parseTime: string -> Option<TimeOfDay>)
    requires Field(form, "action") == Some("add")
    requires !Filled(Field(form, "day_of_week")) || !Filled(Field(form, "time")) || !Filled(Field(form, "subject"))
    ensures Post(rows, nextId, group, form, parseTime) == PostResult(rows, nextId, Redirect(group))
  {
  }

  /** A second row for a slot the group already uses is refused and the table is left as it was. */
  lemma AddToTakenSlotChangesNothing(rows: seq<Schedule>, nextId: Id, group: Id, form: Form,
                                     parseTime: string -> Option<TimeOfDay>, taken: Schedule)
    requires Field(form, "action") == Some("add")
    requires taken in rows && taken.group == group
    requires "day_of_week" in form && ParseInt(form["day_of_week"]) == Some(taken.day)
    requires "time" in form && parseTime(form["time"]) == Some(taken.time)
    ensures Post(rows, nextId, group, form, parseTime) == PostResult(rows, nextId, Redirect(group))
  {
    var r := NewRow(rows, nextId, group, form, parseTime);
    if r.Some? {
      assert SameSlot(taken, r.value);
    }
  }

  /** A complete 'add' for a free slot inserts exactly one row, with the posted values,
      the next id and the room defaulting to empty; nothing else changes. */
  lemma AddInsertsOneRow(rows: seq<Schedule>, nextId: Id, group: Id, form: Form,
                         parseTime: string -> Option<TimeOfDay>, day: int, time: TimeOfDay)
    requires Field(form, "action") == Some("add")
    requires Filled(Field(form, "day_of_week")) && Filled(Field(form, "time")) && Filled(Field(form, "subject"))
    requires ParseInt(form["day_of_week"]) == Some(day) && FitsIntegerColumn(day)
    requires parseTime(form["time"]) == Some(time)
    requires forall y :: y in rows ==> !(y.group == group && y.day == day && y.time == time)
    ensures var r := Post(rows, nextId, group, form, parseTime);
            var row := Schedule(nextId, group, day, time, form["subject"], if "room" in form then form["room"] else "");
            multiset(r.rows) == multiset(rows) + multiset{row} && r.nextId == nextId + 1
            && r.response == Redirect(group)
  {
  }

  /** The day choices are not enforced on this path: a posted day of 9 is stored, and
      such a row has no day name to print. */
  lemma AddStoresDayOutsideWeek(rows: seq<Schedule>, nextId: Id, group: Id, form: Form,
                                parseTime: string -> Option<TimeOfDay>, time: TimeOfDay)
    requires Field(form, "action") == Some("add")
    requires Field(form, "day_of_week") == Some("9")
    requires Filled(Field(form, "time")) && Filled(Field(form, "subject"))
    requires parseTime(form["time"]) == Some(time)
    requires forall y :: y in rows ==> y.group != group
    ensures var r := Post(rows, nextId, group, form, parseTime);
            exists y :: y in r.rows && y.day == 9 && y.group == group && DayName(y.day).None?
  {
    ParseIntOfNatToString(9);
    assert NatToString(9) == "9";
    var row := NewRow(rows, nextId, group, form, parseTime);
    assert row.Some?;
    var r := InsertSorted(rows, row.value);
    assert row.value in multiset(r);
  }

  /** 'delete' removes the row with the posted id only if it belongs to this group; every
      other row stays. */
  lemma DeleteRemovesOnlyThatRow(rows: seq<Schedule>, nextId: Id, group: Id, form: Form,
                                 parseTime: string -> Option<TimeOfDay>, id: int)
    requires Field(form, "action") == Some("delete")
    requires "schedule_id" in form && ParseInt(form["schedule_id"]) == Some(id)
    ensures var r := Post(rows, nextId, group, form, parseTime);
            r.response == Redirect(group) && r.nextId == nextId
            && forall y :: y in r.rows <==> y in rows && !(y.id == id && y.group == group)
  {
    DeleteByNumericId(rows, nextId, group, form, parseTime, id);
  }

  lemma DeleteByNumericId(rows: seq<Schedule>, nextId: Id, group: Id, form: Form,
                          parseTime: string -> Option<TimeOfDay>, id: int)
    requires Field(form, "action") == Some("delete")
    requires "schedule_id" in form && ParseInt(form["schedule_id"]) == Some(id)
    ensures Post(rows, nextId, group, form, parseTime) == PostResult(Remove(rows, id, group), nextId, Redirect(group))
  {
  }

  /** A delete aimed at another group's row, or at an id no row has, leaves the table as it was. */
  lemma DeleteElsewhereChangesNothing(rows: seq<Schedule>, nextId: Id, group: Id, form: Form,
                                      parseTime: string -> Option<TimeOfDay>, id: int)
    requires Field(form, "action") == Some("delete")
    requires "schedule_id" in form && ParseInt(form["schedule_id"]) == Some(id)
    requires forall y :: y in rows && y.id == id ==> y.group != group
    ensures Post(rows, nextId, group, form, parseTime) == PostResult(rows, nextId, Redirect(group))
  {
    WhereKeepsAll(rows, (y: Schedule) => !(y.id == id && y.group == group));
  }

  /** With ids unique, a delete removes at most one row. */
  lemma {:induction false} RemoveAtMostOne(rows: seq<Schedule>, id: Id, group: Id)
    requires WellFormed(rows)
    ensures |Remove(rows, id, group)| >= |rows| - 1
  {
    if rows != [] {
      TailWellFormed(rows);
      var t := rows[1..];
      var keep := (y: Schedule) => !(y.id == id && y.group == group);
      assert Remove(rows, id, group) == (if keep(rows[0]) then [rows[0]] else []) + Where(t, keep);
      if keep(rows[0]) {
        RemoveAtMostOne(t, id, group);
      } else {
        WhereKeepsAll(t, keep);
      }
    }
  }

  /** A day beyond the integer column's range makes the insert raise; the error is
      swallowed and the table is left as it was. */
  lemma AddWithOversizedDayChangesNothing(rows: seq<Schedule>, nextId: Id, group: Id, form: Form,
                                          parseTime: string -> Option<TimeOfDay>, day: int)
    requires Field(form, "action") == Some("add")
    requires "day_of_week" in form && ParseInt(form["day_of_week"]) == Some(day) && !FitsIntegerColumn(day)
    ensures Post(rows, nextId, group, form, parseTime) == PostResult(rows, nextId, Redirect(group))
  {
  }

  /** A schedule id that is not an integer makes the lookup raise: the request fails and
      the table is unchanged. */
  lemma DeleteWithBadIdFails(rows: seq<Schedule>, nextId: Id, group: Id, form: Form,
                             parseTime: string -> Option<TimeOfDay>)
    requires Field(form, "action") == Some("delete")
    requires "schedule_id" in form && ParseInt(form["schedule_id"]).None?
    ensures Post(rows, nextId, group, form, parseTime) == PostResult(rows, nextId, ServerError)
  {
  }

  // ---------------------------------------------------------------------------
  // The table as the view uses it

  class ScheduleTable {
    var rows: seq<Schedule>
    var nextId: Id

    predicate Valid()
      reads this
    {
      TableInvariant(rows, nextId)
    }

    constructor()
      ensures Valid() && rows == []
    {
      rows := [];
      nextId := 1;
    }

    /** The 'add' action. */
    method Add(group: Id, form: Form, parseTime: string -> Option<TimeOfDay>)
      modifies this
      requires Valid()
      ensures Valid()
      ensures match NewRow(old(rows), old(nextId), group, form, parseTime)
              case None => rows == old(rows) && nextId == old(nextId)
              case Some(row) => rows == InsertSorted(old(rows), row) && nextId == old(nextId) + 1
    {
      var row := NewRow(rows, nextId, group, form, parseTime);
      if row.Some? {
        InsertSortedWellFormed(rows, row.value);
        var r := InsertSorted(rows, row.value);
        assert forall y :: y in r ==> y in multiset(r);
        assert forall y :: y in r ==> y == row.value || y in rows;
        rows := r;
        nextId := nextId + 1;
      }
    }

    /** The 'delete' action; `false` when the posted id is not a number and the request fails. */
    method Delete(group: Id, idRaw: Option<string>) returns (ok: bool)
      modifies this
      requires Valid()
      ensures Valid() && nextId == old(nextId)
      ensures ok <==> idRaw.None? || ParseInt(idRaw.value).Some?
      ensures rows == if ok && idRaw.Some? then Remove(old(rows), ParseInt(idRaw.value).value, group) else old(rows)
    {
      ok := true;
      if idRaw.Some? {
        var id := ParseInt(idRaw.value);
        if id.Some? {
          WhereWellFormed(rows, (y: Schedule) => !(y.id == id.value && y.group == group));
          rows := Remove(rows, id.value, group);
        } else {
          ok := false;
        }
      }
    }

    /** `admin_schedule_group` on a POST: dispatches on the action and redirects back,
        unless the delete fails. */
    method HandlePost(group: Id, form: Form, parseTime: string -> Option<TimeOfDay>) returns (response: Response)
      modifies this
      requires Valid()
      ensures Valid()
      ensures Post(old(rows), old(nextId), group, form, parseTime) == PostResult(rows, nextId, response)
    {
      var action := Field(form, "action");
      response := Redirect(group);
      if action == Some("add") {
        Add(group, form, parseTime);
      } else if action == Some("delete") {
        var ok := Delete(group, Field(form, "schedule_id"));
        if !ok {
          response := ServerError;
        }
      }
    }

    /** `admin_schedule_group` on a GET. */
    method Show(group: Id) returns (response: Response)
      requires Valid()
      ensures response == GroupPage(rows, group)
      ensures InScheduleOrder(response.rows) && UniqueSlots(response.rows)
    {
      GroupScheduleOrdered(rows, group);
      response := GroupPage(rows, group);
    }
  }
}
